=== FILE: README.md ===
# PSQL backup tool — a Dafny model of `create_backup`

The PSQL backup tool runs one SQL query and turns every row of its
three-column result (folder, file name, text) into a text file under a
storage folder next to the tool. This project models the part of
`PSQLBackupTool.create_backup` that decides what ends up on disk, and the
`correct_declension` helper behind one of its error messages:

- the result-shape check: exactly three columns, else an error that names the
  count followed by the Russian noun "столбец" in the right genitive form;
  then a positive row count, where the driver's `-1` (unknown) counts as empty;
- the paths of each row: both fragments normalised with `os.path.normpath`
  (taken as `posixpath.normpath`, the tool running on a POSIX system),
  the real file path joined under the installation directory's storage folder,
  and the display path joined from the storage path and the same fragments;
- the row loop: `os.makedirs(..., exist_ok=True)` on the folder, then `open`
  in mode `'w'` (overwrite) or `'x'` (exclusive), stopping at the first error,
  with the OS errors translated as the tool's handlers do.

Modules, in dependency order:

| file | module | what it holds |
|---|---|---|
| `wrappers.dfy` | `Wrappers` | `Option` and `Result` |
| `decimal.dfy` | `Decimal` | Python's `str(int)` and its inverse |
| `errors.dfy` | `Errors` | the tool's errors and their messages |
| `declension.dfy` | `Declension` | `correct_declension` |
| `posix_path.dfy` | `PosixPath` | `split('/')`, `normpath`, `join`, and the location a path names |
| `file_system.dfy` | `FileSystem` | an abstract disk: `makedirs` and `open`+`write` |
| `backup.dfy` | `Backup` | shape check, row paths, one row, the row loop, `create_backup` |
| `backup_properties.dfy` | `BackupProperties` | whole-run properties: abort, last writer wins, reruns, exclusive mode |
| `row_paths.dfy` | `RowPaths` | where a row's file lands |

The disk is a map from locations to file contents plus a set of directory
locations; a location is the list of names from the root. A path string is
walked component by component with `normpath`'s own step, so `..` climbs and
`..` at the root stays there. The installation directory (the tool's
`realpath` of the script's folder) is a parameter.

Three behaviours of the code are worth stating plainly, because a reader of the
tool's messages might expect otherwise:

- Nothing keeps a row's file inside the storage folder. A folder or name that
  climbs out with `..`, or is absolute, lands elsewhere
  (`RowPaths.ParentFolderLeavesStorage`, `RowPaths.AbsoluteNameEscapes`,
  `RowPaths.AbsoluteFolderEscapes`). Only fragments that stay below give a
  target under the storage folder (`RowPaths.TargetBelowStorage`).
- An empty folder or name is not an error: `normpath` turns it into `.`.
  An empty name therefore makes the target the folder itself, which is a
  directory once `makedirs` has run, so such a row is never written
  (`RowPaths.EmptyNameNeverWritten`): exclusive mode reports that the file
  already exists and overwrite mode fails with an uncaught `IsADirectoryError`.
- The invalid-path message says no files were created, but files written by
  earlier rows stay on disk (`BackupProperties.AbortKeepsEarlierFiles`).

## Model

| member | source | states |
|---|---|---|
| Decimal.Str | PSQL_backup_tool.py:126 | `str(number)` is a non-empty string that starts with `-` exactly when the number is negative |
| Decimal.StrRoundTrip | PSQL_backup_tool.py:126 | reading the decimal text back gives the number (after the sign) |
| Declension.EndsWithOne | PSQL_backup_tool.py:128 | the decimal text ends in `1` exactly when the absolute value ends in digit 1 |
| Declension.EndsWithEleven | PSQL_backup_tool.py:128 | the decimal text ends in `11` exactly when the absolute value is 11 modulo 100 |
| Declension.CorrectDeclension | PSQL_backup_tool.py:126-133 | any word but "столбец" is the unknown-word error; otherwise the genitive singular exactly when the last digit is 1 and the last two are not 11, else the genitive plural |
| Declension.DeclensionExamples | PSQL_backup_tool.py:127-131 | 1, 21 and -1 give "столбца"; 2, 5, 11 and 111 give "столбцов" |
| Errors.ColumnCountMessageNamesCount | PSQL_backup_tool.py:83 | the column-count message ends with the count in decimal, a space and the declined noun |
| Errors.FileExistsMessageNamesPath | PSQL_backup_tool.py:102 | the file-exists message names the row's display path |
| Errors.Message | PSQL_backup_tool.py:83-133 | each error is shown with the tool's fixed text for its kind: the unknown-word, column-count and file-exists messages open with their fixed wording, and the empty-result and invalid-path messages are exactly the tool's texts |
| PosixPath.Normpath | PSQL_backup_tool.py:89-90 | `normpath` never returns the empty string and keeps a path absolute or relative |
| PosixPath.NormpathIdempotent | PSQL_backup_tool.py:89-90 | normalising a normalised fragment changes nothing |
| PosixPath.NormSegsOfNormpath | PSQL_backup_tool.py:60 | normalising the normalised storage path again yields the same components |
| PosixPath.JoinAssociative | PSQL_backup_tool.py:92-94 | joining is associative, absolute right operands included |
| PosixPath.ResolveJoinRelative | PSQL_backup_tool.py:92-93 | joining a relative path continues the walk from where the left path ends |
| PosixPath.ResolveJoinAbsolute | PSQL_backup_tool.py:92-93 | joining an absolute path discards the left path |
| PosixPath.ResolveJoinBelow | PSQL_backup_tool.py:92-93 | a normalised fragment that is relative and has no `..` lands below the base, at the base followed by its components |
| FileSystem.MakeDirsFrom | PSQL_backup_tool.py:95 | `makedirs` walk: files untouched; on a well-formed disk it succeeds exactly when no location on the walk is a file, and then every location passed is a directory and the new directories are exactly the walk's; otherwise the first file on the walk gives `FileExistsError` when it is the last component and `NotADirectoryError` before that |
| FileSystem.MakeDirs | PSQL_backup_tool.py:95 | on a well-formed disk `makedirs` succeeds exactly when no location on the folder's walk is a file, the error kind set by where the first file stands; on success the folder names a directory and the directories added are the walk's locations |
| FileSystem.WalkLocsArePrefixes | PSQL_backup_tool.py:95 | the locations `makedirs` passes are exactly those the non-empty prefixes of the folder's components lead to |
| FileSystem.FirstFileOnWalkIsFirst | PSQL_backup_tool.py:95 | the index found is that of the first prefix of the walk that ends on a file, and when none is found no prefix does |
| FileSystem.FirstFileOnWalkMisses | PSQL_backup_tool.py:95 | the walk meets no file exactly when none of its locations is a file |
| FileSystem.WalkLocsHasEnd | PSQL_backup_tool.py:95 | a non-empty `makedirs` walk passes through the location the path names |
| FileSystem.WalkLocsConcat | PSQL_backup_tool.py:95 | the `makedirs` walk of a concatenation is the walk of the first part followed by the walk of the second from where the first ends |
| FileSystem.WalkLocsNames | PSQL_backup_tool.py:95 | a `makedirs` walk over plain names passes exactly through each successive descent |
| FileSystem.MakeDirsExisting | PSQL_backup_tool.py:95 | with `exist_ok=True`, existing directories are not an error and nothing changes |
| FileSystem.MakeDirsIdempotent | PSQL_backup_tool.py:95 | calling `makedirs` again on its own result changes nothing |
| FileSystem.LocateFrom | PSQL_backup_tool.py:96 | `open` succeeds in looking up the entry exactly when every directory before it exists; otherwise `FileNotFoundError` or `NotADirectoryError` |
| FileSystem.WriteFile | PSQL_backup_tool.py:96-97 | `open`+`write` succeeds exactly when the parents exist, the target is no directory and, for `'x'`, nothing is there; then only the target changes, to the text; `'x'` on an existing entry is `FileExistsError`, `'w'` on a directory `IsADirectoryError` |
| Backup.ModeOf | PSQL_backup_tool.py:63-64 | the open mode truncates exactly when overwriting is on |
| Backup.ContextOf | PSQL_backup_tool.py:60-64 | the storage setting is normalised once: the stored path is already normal, names the same components as the setting and is absolute exactly when the setting is; the mode truncates exactly when overwriting is on |
| Backup.JobOf | PSQL_backup_tool.py:89-94 | the real file path is the display path under the installation directory, and the file name joined to the real folder; the row's text is written unchanged; with a relative storage path and relative fragments the display path is relative |
| Backup.Translate | PSQL_backup_tool.py:99-102 | missing or non-directory folders give the invalid-path error, an existing entry the file-exists error with the display path, a directory target the uncaught error |
| Backup.WriteRow | PSQL_backup_tool.py:95-102 | one row: directories only grow, and only along the folder's walk; on success the target holds the row's text and nothing else changes; on failure no file changes; exclusive mode fails on an existing target |
| Backup.TargetInFolder | PSQL_backup_tool.py:93-96 | when the file is a plain name joined to the folder, the target is an entry directly inside the folder's location |
| Backup.WriteRowSuccessClear | PSQL_backup_tool.py:95-102 | a row that succeeds had no file on its folder's walk, no directory at its target, its target off the walk, and in exclusive mode no file at its target |
| Backup.ClearRowSucceeds | PSQL_backup_tool.py:95-97 | a row whose file is a plain name in its folder succeeds, in either mode, when nothing on disk is in its way |
| Backup.WriteRowSucceeds | PSQL_backup_tool.py:95-102 | for such a row, success exactly when nothing on disk is in its way |
| Backup.WriteReadyRow | PSQL_backup_tool.py:95-97 | when the folders exist, overwrite mode just sets the target and exclusive mode on an existing file reports it, directories untouched |
| Backup.Loop | PSQL_backup_tool.py:87-102 | rows are processed in order until the first failure: a run that succeeds reports every row, one that fails reports fewer rows than it was given |
| Backup.Run | PSQL_backup_tool.py:87-102 | a run in either mode only adds directories and files, keeps the disk well formed, and reports every row exactly when it succeeds |
| Backup.Materialise | PSQL_backup_tool.py:87-94 | the row loop of `create_backup` never removes a directory or a file, and reports every row exactly when no row failed |
| Backup.ValidateShape | PSQL_backup_tool.py:80-86 | passes exactly when there are three columns and a positive row count; the column count is checked first and its error carries the count and the correctly declined noun; otherwise a count of 0 or -1 rows is the empty-result error |
| Backup.CreateBackup | PSQL_backup_tool.py:80-102 | a failed shape check reports its error, writes nothing and creates nothing; a passed one runs the rows with the settings' context |
| BackupProperties.AbortSkipsRest | PSQL_backup_tool.py:87-102 | after a failure, later rows are not processed at all |
| BackupProperties.LoopConcat | PSQL_backup_tool.py:87 | a loop over two row lists is the second list run on the state the first left, reporting both lists' files |
| BackupProperties.LoopPrefix | PSQL_backup_tool.py:87-102 | the rows reported as created, run on their own, all succeed |
| BackupProperties.LoopReportsDisplays | PSQL_backup_tool.py:97-98 | the files reported are the display paths of the first rows, in row order |
| BackupProperties.MaterialiseReportsRows | PSQL_backup_tool.py:89-98 | every file `create_backup` reports is the display path of the row at that position |
| BackupProperties.AbortAtFirstFailure | PSQL_backup_tool.py:87-102 | a failed run stopped at the first row not reported: every earlier row succeeded, the failure is that row's own outcome, and later rows play no part |
| BackupProperties.AbortKeepsEarlierFiles | PSQL_backup_tool.py:99-102 | a failed run leaves exactly the files the successful rows before it left, although the message says no files were created |
| BackupProperties.ClearAfterFirst | PSQL_backup_tool.py:87-97 | after the first of mutually clear rows is written, the remaining rows are clear on the disk it leaves |
| BackupProperties.ClearBeforeFirst | PSQL_backup_tool.py:87-97 | rows are mutually clear when the first is clear and the rest are clear on the disk the first leaves |
| BackupProperties.ClearRunSucceeds | PSQL_backup_tool.py:87-97 | rows clear of the disk and of each other all succeed, in either mode |
| BackupProperties.RunSuccessClear | PSQL_backup_tool.py:87-102 | a successful run had its rows clear of the disk and of each other |
| BackupProperties.RunSucceeds | PSQL_backup_tool.py:87-102 | a run of plain-named rows succeeds exactly when no row's folder walk meets a file or another row's target, no target is a directory, and in exclusive mode every target is new and distinct |
| BackupProperties.RunWrites | PSQL_backup_tool.py:87-97 | a successful run leaves the contents of writing each row's text to its target, in order |
| BackupProperties.RunTargetsWritten | PSQL_backup_tool.py:87-97 | after a successful run every row's target is a file |
| BackupProperties.OverwriteLastWriterWins | PSQL_backup_tool.py:87-97 | each target holds the text of the last row targeting it; files no row targets are unchanged and no other file appears |
| BackupProperties.FirstRunReady | PSQL_backup_tool.py:95-97 | after a successful run every row's folders exist and its target is a file |
| BackupProperties.ReplayReady | PSQL_backup_tool.py:95-97 | in overwrite mode, rows whose folders exist are written in order without touching directories |
| BackupProperties.OverwriteRerunIdempotent | PSQL_backup_tool.py:95-97 | in overwrite mode, running the same rows again after a successful run changes nothing and reports the same files |
| BackupProperties.ExclusiveTargetsFresh | PSQL_backup_tool.py:96-102 | a successful exclusive run wrote only new files, no two rows to the same place |
| BackupProperties.ExclusiveKeepsExisting | PSQL_backup_tool.py:96-102 | exclusive mode never changes an existing file, whether the run succeeds or stops |
| BackupProperties.ExclusiveExistingTargetStops | PSQL_backup_tool.py:96-102 | a row whose target exists when reached stops the run there with earlier contents kept; with its folders in place the error names that row's display path |
| BackupProperties.ExclusiveRepeatedTargetStops | PSQL_backup_tool.py:96-102 | two rows with the same target stop an exclusive run no later than the second |
| BackupProperties.ExclusiveRerunFails | PSQL_backup_tool.py:96-102 | running the same rows again in exclusive mode fails on the first row, naming its display path, and changes nothing |
| RowPaths.TargetBelowStorage | PSQL_backup_tool.py:89-93 | fragments that stay below give the storage location followed by the folder's and the name's components |
| RowPaths.AbsoluteNameEscapes | PSQL_backup_tool.py:90-93 | an absolute file name is written where it points, whatever the folder and settings |
| RowPaths.AbsoluteFolderEscapes | PSQL_backup_tool.py:89-92 | an absolute folder makes the target independent of the installation directory and storage setting |
| PosixPath.SplitJoinName | PSQL_backup_tool.py:93 | joining a separator-free name adds it as the last component after the path's own |
| PosixPath.ResolveJoinName | PSQL_backup_tool.py:93 | joining a plain name names the entry of that name inside the path's location |
| PosixPath.JoinSplits | PSQL_backup_tool.py:92-94 | joining a relative path to a non-empty one appends its components to the left path's own, less the empty one a trailing separator leaves |
| RowPaths.ParentFolderLeavesStorage | PSQL_backup_tool.py:89-93 | installation `/r`, storage `s`, folder `..`, name `f` writes `/r/f`, outside `/r/s` |
| RowPaths.EmptyNameNeverWritten | PSQL_backup_tool.py:90-97 | an empty file name targets the row's folder itself, and such a row fails in either mode |
| RowPaths.PlainNameFileInFolder | PSQL_backup_tool.py:89-94 | a row whose name normalises to one plain component is written to that name directly inside its real folder |
| RowPaths.DisplayMatchesTarget | PSQL_backup_tool.py:89-94 | for fragments that stay below, the display path names the storage path followed by the folder's and the name's components, and the real path the same components under the real storage folder |
| RowPaths.FolderWalkBelow | PSQL_backup_tool.py:89-95 | the folder is normalised before `makedirs` sees it: for a folder that stays below, the directories passed are those on the way to the real storage folder and then one per component of the folder's normal form, so `a/../b` passes through `b` alone |
| RowPaths.RowFoldersBelow | PSQL_backup_tool.py:89-97 | a row whose folder stays below creates directories only on the way to the storage folder or along the folder's normal form, and on success every directory of that normal form exists |
| RowPaths.WalkAfterJoin | PSQL_backup_tool.py:92-95 | walking a joined path walks the left path, then the relative right one from where the left ends |
| RowPaths.NormalFolderWalk | PSQL_backup_tool.py:89-95 | walking a normalised folder that stays below descends through its normal components and nowhere else |
| RowPaths.NormpathOfNames | PSQL_backup_tool.py:89-90 | a path of plain names joined by single separators is already normal |
| RowPaths.ResolveJoinNames | PSQL_backup_tool.py:92-93 | joining such a path continues the walk by exactly its names |
| RowPaths.NestedDisplay | PSQL_backup_tool.py:94 | storage `s`, folder `a/b` and name `n`, all plain names, give the display path `s/a/b/n` |
| RowPaths.NestedFolderRowPaths | PSQL_backup_tool.py:60-94 | for such a row the display path is `s/a/b/n` and the file is written at the installation directory's location followed by `s`, `a`, `b`, `n` |

## Left out

- Reading `settings.json` and `query.sql`, JSON decoding and the missing-key errors (lines 42-66): file and format I/O outside the core; the model starts from the storage setting and the overwrite flag.
- Connecting to PostgreSQL, running the query, the database-error handler, closing the connection and the progress messages (lines 68-80, 98, 103-107): driver and console I/O. The cursor is modelled as its column count, its row count and its rows; the reported display paths stand for the success messages.
- `realpath` of the script's folder: the installation directory is a parameter.
- `str()` of non-string column values and `None` (lines 89-91): rows are modelled as strings already.
- UTF-8 encoding of the files: contents are strings.
- A description of `None` when the query returns no result set (line 81 would raise `TypeError`): the column count is a natural number.
- Errors the operating system raises for other reasons (permissions, names with a NUL byte, full disks): the disk model has no such limits.
- `normpath`'s rule that keeps exactly two leading slashes: paths starting with `//` are treated like those starting with `/`.
- Trailing separators on the folder path: `normpath` removes them, so `makedirs` only sees them on the root.
- Rows are read as a finite sequence fixed in advance rather than streamed; every property quantifies over the rows as given.
- A host other than POSIX: `os.path` is `ntpath` on Windows, with its own separators, drives and joining rules; the model follows `posixpath` throughout.
- Case-insensitive or Unicode-normalising file systems (the usual macOS and Windows defaults): names are compared as exact strings, so two rows whose names differ only in case are distinct targets here, while on such a disk they would collide (changing which row wins in overwrite mode and making exclusive mode stop).
- Symbolic links: the disk has only files and directories. With links, `'w'` writes through a link at the target, `'x'` refuses even a dangling link, and `..` after a linked folder climbs from the link's destination rather than lexically.
- Context: the installation directory may be any string, whereas the tool takes it from `realpath`, which is absolute and has no `.`, `..` or links; every path is resolved lexically from the root. For impossible values (a `..` after a missing folder, say) Python's `makedirs` can differ from the model's walk.
- BackupProperties.RunSucceeds: characterises success only for rows whose file is a plain name in its folder (`Backup.FileInFolder`, which a row whose name normalises to one component meets by `RowPaths.PlainNameFileInFolder`); for names with several components only the direction "success implies clear" is stated, by `Backup.WriteRowSuccessClear` for each row.

=== FILE: backup.dfy ===
/**
 * The core of `PSQLBackupTool.create_backup`: the result-shape check, the
 * paths derived from each row, and the loop that turns rows into files,
 * stopping at the first failure.
 *
 * The database cursor is a column count, a row count and a finite sequence
 * of rows; the disk is the abstract file system of module `FileSystem`.
 */
module Backup {
  import opened Wrappers
  import opened Errors
  import opened Declension
  import opened PosixPath
  import opened FileSystem

  /** One result row: folder fragment, file name and file content, all untrusted text. */
  datatype Row = Row(folder: string, name: string, text: string)

  /** The settings the core uses: the storage folder (relative to the installation directory) and the overwrite flag. */
  datatype Settings = Settings(storage: string, overwriting: bool)

  /** What the executed query yields: the column count, the driver's row count (-1 when unknown) and the rows. */
  datatype Cursor = Cursor(columns: nat, rowCount: int, rows: seq<Row>)

  /** Fixed for the whole run: the installation directory, the normalised storage path and the open mode. */
  datatype Context = Context(installDir: string, storagePath: string, mode: OpenMode)

  /**
   * A row together with the paths derived from it: the real folder to
   * create, the real file to write, the storage-relative display path, and
   * the content.
   */
  datatype Job = Job(folder: string, file: string, display: string, text: string)

  /** The final file system, the display paths reported as created (in row order), and the error that stopped the run. */
  datatype Report = Report(fs: FileSystem, created: seq<string>, failure: Option<Error>)

  const ExpectedColumns: nat := 3

  /** The open mode the overwrite flag selects. */
  function ModeOf(overwriting: bool): (m: OpenMode)
    ensures m == Truncate <==> overwriting
  {
    if overwriting then Truncate else Exclusive
  }

  /**
   * The run's context from the settings: the storage path normalised once,
   * naming the same components and keeping its absoluteness, and the open
   * mode the overwrite flag selects.
   */
  function ContextOf(installDir: string, settings: Settings): (c: Context)
    ensures c.installDir == installDir
    ensures Normpath(c.storagePath) == c.storagePath
    ensures NormSegs(c.storagePath) == NormSegs(settings.storage)
    ensures IsAbsolute(c.storagePath) <==> IsAbsolute(settings.storage)
    ensures c.mode == Truncate <==> settings.overwriting
  {
    NormpathIdempotent(settings.storage);
    NormSegsOfNormpath(settings.storage);
    Context(installDir, Normpath(settings.storage), ModeOf(settings.overwriting))
  }

  /** The storage folder on disk: the normalised storage path joined to the installation directory. */
  function RealStorage(ctx: Context): string {
    Join(ctx.installDir, ctx.storagePath)
  }

  /**
   * The paths of one row. Both fragments are normalised once and used for
   * the real and the display path alike, so the real file path is exactly
   * the display path placed under the installation directory.
   */
  function JobOf(ctx: Context, row: Row): (j: Job)
    ensures j.file == Join(ctx.installDir, j.display)
    ensures j.file == Join(j.folder, Normpath(row.name))
    ensures j.text == row.text
    ensures !IsAbsolute(ctx.storagePath) && !IsAbsolute(row.folder) && !IsAbsolute(row.name) ==>
      !IsAbsolute(j.display)
  {
    var folder := Normpath(row.folder);
    var name := Normpath(row.name);
    var realFolder := Join(RealStorage(ctx), folder);
    var display := Join(Join(ctx.storagePath, folder), name);
    JoinAssociative(ctx.installDir, ctx.storagePath, folder);
    JoinAssociative(ctx.installDir, Join(ctx.storagePath, folder), name);
    JoinKeepsRelative3(ctx.storagePath, folder, name);
    Job(realFolder, Join(realFolder, name), display, row.text)
  }

  function JobsOf(ctx: Context, rows: seq<Row>): (jobs: seq<Job>)
    ensures |jobs| == |rows|
  {
    seq(|rows|, i requires 0 <= i < |rows| => JobOf(ctx, rows[i]))
  }

  /** The location a job's file ends up at. */
  function Target(job: Job): Loc {
    Resolve(job.file)
  }

  /**
   * A job is ready in `fs` when its folder and the folders on its file path
   * already exist and its target is not a directory: performing it then
   * only sets the target's content.
   */
  predicate Ready(fs: FileSystem, job: Job) {
    && Traversable(fs, [], Split(job.folder))
    && Traversable(fs, [], Parents(job.file))
    && !IsDir(fs, Target(job))
  }

  /** The locations `makedirs` passes through for a job's folder. */
  function FolderWalk(job: Job): set<Loc> {
    WalkLocs([], Split(job.folder))
  }

  /** A job whose file is a plain name joined to its folder, as for a row whose name is one component. */
  predicate FileInFolder(job: Job) {
    var comps := Split(job.file);
    var name := comps[|comps| - 1];
    IsName(name) && job.file == Join(job.folder, name)
  }

  /** The target of a job whose file is a plain name in its folder is an entry directly inside the folder. */
  lemma TargetInFolder(job: Job)
    requires FileInFolder(job)
    ensures |Target(job)| > 0 && Target(job)[..|Target(job)| - 1] == Resolve(job.folder)
  {
    var comps := Split(job.file);
    ResolveJoinName(job.folder, comps[|comps| - 1]);
  }

  /**
   * Nothing on disk stands in a job's way: no file on its folder's walk,
   * no directory at its target, the target not among the folders the walk
   * makes, and in exclusive mode no file at the target.
   */
  predicate RowClear(fs: FileSystem, mode: OpenMode, job: Job) {
    && FolderWalk(job) !! fs.files.Keys
    && Target(job) !in fs.dirs
    && Target(job) !in FolderWalk(job)
    && (mode == Exclusive ==> Target(job) !in fs.files)
  }

  /** The state after one row, and the error that stopped the run there, if any. */
  datatype Step = Step(fs: FileSystem, failure: Option<Error>)

  /**
   * The handlers around one row: a missing or non-directory folder is the
   * invalid-path error, an existing entry is the file-exists error naming
   * the row's display path, and a directory opened for writing is not
   * caught.
   */
  function Translate(e: OsError, display: string): (r: Error)
    ensures r == InvalidPath <==> e == NotFound || e == NotADirectory
    ensures r == FileExists(display) <==> e == AlreadyExists
    ensures r == TargetIsDirectory <==> e == IsADirectory
  {
    match e
    case NotFound => InvalidPath
    case NotADirectory => InvalidPath
    case AlreadyExists => FileExists(display)
    case IsADirectory => TargetIsDirectory
  }

  /**
   * One iteration of the row loop: make the row's folders, then open the
   * file in the run's mode and write the content. A failure leaves the file
   * contents as they were (directories made before it remain).
   */
  function WriteRow(fs: FileSystem, mode: OpenMode, job: Job): (o: Step)
    ensures fs.dirs <= o.fs.dirs
    ensures WellFormed(fs) ==> WellFormed(o.fs)
    ensures o.failure.Some? ==> o.fs.files == fs.files
    ensures o.failure.None? ==> o.fs.files == fs.files[Target(job) := job.text]
    ensures o.failure.None? ==> Ready(o.fs, job)
    ensures o.failure.Some? ==>
      o.failure == Some(InvalidPath) || o.failure == Some(FileExists(job.display)) ||
      (mode == Truncate && o.failure == Some(TargetIsDirectory))
    ensures mode == Exclusive && Target(job) in fs.files ==> o.failure.Some?
    ensures o.fs.dirs <= fs.dirs + FolderWalk(job)
    ensures o.failure.None? ==> FolderWalk(job) - {[]} <= o.fs.dirs
  {
    var made := MakeDirs(fs, job.folder);
    if made.failure.Some? then Step(made.fs, Some(Translate(made.failure.value, job.display)))
    else
      var o := WriteFile(made.fs, job.file, mode, job.text);
      if o.failure.Some? then Step(o.fs, Some(Translate(o.failure.value, job.display)))
      else
        TraversableMono(made.fs, o.fs, [], Split(job.folder));
        TraversableMono(made.fs, o.fs, [], Parents(job.file));
        Step(o.fs, None)
  }

  /** A ready job is performed without touching the directories. */
  lemma WriteReadyRow(fs: FileSystem, mode: OpenMode, job: Job)
    requires Ready(fs, job)
    ensures mode == Truncate ==>
      WriteRow(fs, mode, job) == Step(fs.(files := fs.files[Target(job) := job.text]), None)
    ensures mode == Exclusive && Target(job) in fs.files ==>
      WriteRow(fs, mode, job) == Step(fs, Some(FileExists(job.display)))
  {
    MakeDirsExisting(fs, [], Split(job.folder));
  }

  /** A row that succeeds had nothing on disk in its way. */
  lemma WriteRowSuccessClear(fs: FileSystem, mode: OpenMode, job: Job)
    requires WellFormed(fs)
    requires WriteRow(fs, mode, job).failure.None?
    ensures RowClear(fs, mode, job)
  {
    var made := MakeDirs(fs, job.folder);
    assert made.failure.None?;
    FirstFileOnWalkMisses(fs.files, [], Split(job.folder));
    var o := WriteFile(made.fs, job.file, mode, job.text);
    assert o.failure.None?;
    assert !IsDir(made.fs, Target(job));
  }

  /** A row whose file is a plain name in its folder succeeds when nothing on disk is in its way. */
  lemma ClearRowSucceeds(fs: FileSystem, mode: OpenMode, job: Job)
    requires WellFormed(fs)
    requires FileInFolder(job) && RowClear(fs, mode, job)
    ensures WriteRow(fs, mode, job).failure.None?
  {
    var made := MakeDirs(fs, job.folder);
    FirstFileOnWalkMisses(fs.files, [], Split(job.folder));
    assert made.failure.None?;
    var comps := Split(job.file);
    var name := comps[|comps| - 1];
    TargetInFolder(job);
    assert !IsDir(made.fs, Target(job));
    SplitJoinName(job.folder, name);
    assert Traversable(made.fs, [], Parents(job.file)) by {
      if Split(job.folder) != Parents(job.file) {
        TraversablePrefix(made.fs, [], Parents(job.file), [""]);
      }
    }
    assert WriteFile(made.fs, job.file, mode, job.text).failure.None?;
  }

  /**
   * When a row succeeds: for a row whose file is a plain name in its
   * folder, exactly when nothing on disk stands in its way.
   */
  lemma WriteRowSucceeds(fs: FileSystem, mode: OpenMode, job: Job)
    requires WellFormed(fs)
    requires FileInFolder(job)
    ensures WriteRow(fs, mode, job).failure.None? <==> RowClear(fs, mode, job)
  {
    if WriteRow(fs, mode, job).failure.None? {
      WriteRowSuccessClear(fs, mode, job);
    }
    if RowClear(fs, mode, job) {
      ClearRowSucceeds(fs, mode, job);
    }
  }

  /** The display paths of the jobs, in order. */
  function Displays(jobs: seq<Job>): (d: seq<string>)
    ensures |d| == |jobs|
    ensures forall i :: 0 <= i < |jobs| ==> d[i] == jobs[i].display
    decreases |jobs|
  {
    if |jobs| == 0 then [] else [jobs[0].display] + Displays(jobs[1..])
  }

  /**
   * The shape of the row loop, for any per-row step: rows are processed in
   * order and the first failure stops the loop; what earlier rows did
   * stays. `created` lists the display path of each row that succeeded,
   * which is what `create_backup` prints.
   */
  function Loop(step: (FileSystem, Job) -> Step, fs: FileSystem, jobs: seq<Job>): (r: Report)
    ensures r.failure.None? ==> |r.created| == |jobs|
    ensures r.failure.Some? ==> |r.created| < |jobs|
    decreases |jobs|
  {
    if |jobs| == 0 then Report(fs, [], None)
    else
      var o := step(fs, jobs[0]);
      if o.failure.Some? then Report(o.fs, [], o.failure)
      else
        var rest := Loop(step, o.fs, jobs[1..]);
        Report(rest.fs, [jobs[0].display] + rest.created, rest.failure)
  }

  /** The step of a run in the given open mode: one iteration of the row loop. */
  function StepOf(mode: OpenMode): (FileSystem, Job) -> Step {
    (f: FileSystem, j: Job) => WriteRow(f, mode, j)
  }

  /** A run only adds directories and files, and keeps the disk well formed. */
  lemma {:induction false} LoopOfStepsGrows(fs: FileSystem, mode: OpenMode, jobs: seq<Job>)
    ensures var r := Loop(StepOf(mode), fs, jobs);
      && fs.dirs <= r.fs.dirs
      && fs.files.Keys <= r.fs.files.Keys
      && (WellFormed(fs) ==> WellFormed(r.fs))
    decreases |jobs|
  {
    if |jobs| > 0 {
      var o := WriteRow(fs, mode, jobs[0]);
      if o.failure.None? {
        LoopOfStepsGrows(o.fs, mode, jobs[1..]);
      }
    }
  }

  /**
   * The row loop of `create_backup` in the given open mode: each job's
   * folders are made and its file written, and the first failure stops the
   * run. Directories and files are only ever added.
   */
  function Run(fs: FileSystem, mode: OpenMode, jobs: seq<Job>): (r: Report)
    ensures fs.dirs <= r.fs.dirs
    ensures fs.files.Keys <= r.fs.files.Keys
    ensures WellFormed(fs) ==> WellFormed(r.fs)
    ensures r.failure.None? ==> |r.created| == |jobs|
    ensures r.failure.Some? ==> |r.created| < |jobs|
  {
    LoopOfStepsGrows(fs, mode, jobs);
    Loop(StepOf(mode), fs, jobs)
  }

  /** One iteration of a run, unfolded. */
  lemma RunUnfold(fs: FileSystem, mode: OpenMode, jobs: seq<Job>)
    requires |jobs| > 0
    ensures var o := WriteRow(fs, mode, jobs[0]);
      Run(fs, mode, jobs) ==
        if o.failure.Some? then Report(o.fs, [], o.failure)
        else
          var rest := Run(o.fs, mode, jobs[1..]);
          Report(rest.fs, [jobs[0].display] + rest.created, rest.failure)
  {
  }

  /** The loop of `create_backup` over the query's rows, each with its derived paths. */
  function Materialise(fs: FileSystem, ctx: Context, rows: seq<Row>): (r: Report)
    ensures fs.dirs <= r.fs.dirs && fs.files.Keys <= r.fs.files.Keys
    ensures r.failure.None? <==> |r.created| == |rows|
  {
    Run(fs, ctx.mode, JobsOf(ctx, rows))
  }

  /**
   * The shape check made before any row is read: the column count first,
   * its message declining the noun "column" after the count; then the row
   * count, where the driver's -1 (unknown) counts as empty.
   */
  function ValidateShape(columns: nat, rowCount: int): (r: Option<Error>)
    ensures r.None? <==> columns == ExpectedColumns && rowCount > 0
    ensures columns != ExpectedColumns ==>
      r.Some? && r.value.ColumnCount? && r.value.columns == columns &&
      (r.value.noun == ColumnGenitiveSingular <==> TakesSingular(columns)) &&
      (r.value.noun == ColumnGenitiveSingular || r.value.noun == ColumnGenitivePlural)
    ensures columns == ExpectedColumns && rowCount <= 0 ==> r == Some(EmptyResult)
  {
    if columns != ExpectedColumns then
      match CorrectDeclension(ColumnNoun, columns)
      case Success(noun) => Some(ColumnCount(columns, noun))
      case Failure(e) => Some(e)
    else if rowCount <= 0 then Some(EmptyResult)
    else None
  }

  /**
   * `create_backup` once settings are read and the query has run: derive the
   * run's context, check the result shape, then materialise the rows.
   */
  function CreateBackup(installDir: string, settings: Settings, cursor: Cursor, fs: FileSystem): (r: Report)
    ensures ValidateShape(cursor.columns, cursor.rowCount).Some? ==>
      r == Report(fs, [], ValidateShape(cursor.columns, cursor.rowCount))
    ensures ValidateShape(cursor.columns, cursor.rowCount).None? ==>
      r == Materialise(fs, ContextOf(installDir, settings), cursor.rows)
  {
    match ValidateShape(cursor.columns, cursor.rowCount)
    case Some(e) => Report(fs, [], Some(e))
    case None => Materialise(fs, ContextOf(installDir, settings), cursor.rows)
  }
}

=== FILE: backup_properties.dfy ===
/**
 * Properties of the row loop over whole runs: what an abort keeps, what an
 * overwriting run leaves behind, and what exclusive creation refuses.
 */
module BackupProperties {
  import opened Wrappers
  import opened Errors
  import opened PosixPath
  import opened FileSystem
  import opened Backup
  import opened Seqs

  // ---------------------------------------------------------------------
  // The loop, for any per-row step

  /** Once the loop has failed, further rows change nothing: they are never processed. */
  lemma {:induction false} AbortSkipsRest(step: (FileSystem, Job) -> Step, fs: FileSystem, xs: seq<Job>, ys: seq<Job>)
    requires Loop(step, fs, xs).failure.Some?
    ensures Loop(step, fs, xs + ys) == Loop(step, fs, xs)
    decreases |xs|
  {
    ConcatFront(xs, ys);
    var o := step(fs, xs[0]);
    if o.failure.None? {
      AbortSkipsRest(step, o.fs, xs[1..], ys);
    }
  }

  /** A loop that succeeded on some rows continues from the state it left. */
  lemma {:induction false} LoopConcat(step: (FileSystem, Job) -> Step, fs: FileSystem, xs: seq<Job>, ys: seq<Job>)
    requires Loop(step, fs, xs).failure.None?
    ensures var a := Loop(step, fs, xs);
      var b := Loop(step, a.fs, ys);
      Loop(step, fs, xs + ys) == Report(b.fs, a.created + b.created, b.failure)
    decreases |xs|
  {
    if |xs| == 0 {
      assert xs + ys == ys;
    } else {
      ConcatFront(xs, ys);
      var o := step(fs, xs[0]);
      var a' := Loop(step, o.fs, xs[1..]);
      LoopConcat(step, o.fs, xs[1..], ys);
      var b := Loop(step, a'.fs, ys);
      ConcatAssoc([xs[0].display], a'.created, b.created);
    }
  }

  /** The loop over as many rows as it reported created runs without failure. */
  lemma {:induction false} LoopPrefix(step: (FileSystem, Job) -> Step, fs: FileSystem, jobs: seq<Job>, k: nat)
    requires k <= |Loop(step, fs, jobs).created|
    ensures Loop(step, fs, jobs[..k]).failure.None?
    decreases k
  {
    var prefix := jobs[..k];
    if k == 0 {
      assert prefix == [];
    } else {
      var o := step(fs, jobs[0]);
      LoopPrefix(step, o.fs, jobs[1..], k - 1);
      PrefixFront(jobs, k);
    }
  }

  /** The loop reports the display paths of its first rows, in order. */
  lemma {:induction false} LoopReportsDisplays(step: (FileSystem, Job) -> Step, fs: FileSystem, jobs: seq<Job>)
    ensures var r := Loop(step, fs, jobs);
      r.created == Displays(jobs[..|r.created|])
    decreases |jobs|
  {
    if |jobs| > 0 {
      var o := step(fs, jobs[0]);
      if o.failure.Some? {
        assert jobs[..0] == [];
      } else {
        var rest := Loop(step, o.fs, jobs[1..]);
        LoopReportsDisplays(step, o.fs, jobs[1..]);
        var n := |rest.created|;
        PrefixFront(jobs, n + 1);
      }
    }
  }

  /**
   * A failed loop stopped at row `k`, the number of rows reported created:
   * the rows before it all succeeded and are the ones reported, the failure
   * is row `k`'s own outcome from the state they left, and the rows after
   * `k` play no part.
   */
  lemma AbortAtFirstFailure(step: (FileSystem, Job) -> Step, fs: FileSystem, jobs: seq<Job>)
    requires Loop(step, fs, jobs).failure.Some?
    ensures var r := Loop(step, fs, jobs);
      var k := |r.created|;
      var before := Loop(step, fs, jobs[..k]);
      && before.failure.None?
      && before.created == r.created
      && step(before.fs, jobs[k]) == Step(r.fs, r.failure)
      && Loop(step, fs, jobs[..k + 1]) == r
  {
    var r := Loop(step, fs, jobs);
    var k := |r.created|;
    var before := Loop(step, fs, jobs[..k]);
    var rest := jobs[k..];
    var b := Loop(step, before.fs, rest);
    LoopPrefix(step, fs, jobs, k);
    SplitAt(jobs, k);
    LoopConcat(step, fs, jobs[..k], rest);
    var o := step(before.fs, rest[0]);
    assert b == Report(o.fs, [], o.failure);
    assert rest[0] == jobs[k];
    assert jobs[..k + 1] == jobs[..k] + [rest[0]];
    LoopConcat(step, fs, jobs[..k], [rest[0]]);
  }

  /** A failed run keeps the files the rows before the failure wrote, and nothing else. */
  lemma AbortKeepsEarlierFiles(fs: FileSystem, mode: OpenMode, jobs: seq<Job>)
    requires Run(fs, mode, jobs).failure.Some?
    ensures var r := Run(fs, mode, jobs);
      r.fs.files == Run(fs, mode, jobs[..|r.created|]).fs.files
  {
    AbortAtFirstFailure(StepOf(mode), fs, jobs);
  }

  /** `create_backup` reports, in row order, the display path of each row it wrote. */
  lemma MaterialiseReportsRows(fs: FileSystem, ctx: Context, rows: seq<Row>)
    ensures var r := Materialise(fs, ctx, rows);
      forall i :: 0 <= i < |r.created| ==> r.created[i] == JobOf(ctx, rows[i]).display
  {
    var jobs := JobsOf(ctx, rows);
    var r := Materialise(fs, ctx, rows);
    LoopReportsDisplays(StepOf(ctx.mode), fs, jobs);
    assert r.created == Displays(jobs[..|r.created|]);
  }

  // ---------------------------------------------------------------------
  // When a run succeeds

  /**
   * Rows clear of the disk and of each other: each row is clear on the
   * starting disk, no row's target lies on any row's folder walk, and in
   * exclusive mode no two rows share a target.
   */
  predicate RunClear(fs: FileSystem, mode: OpenMode, jobs: seq<Job>) {
    && (forall i :: 0 <= i < |jobs| ==> RowClear(fs, mode, jobs[i]))
    && (forall i, j :: 0 <= i < |jobs| && 0 <= j < |jobs| ==> Target(jobs[i]) !in FolderWalk(jobs[j]))
    && (mode == Exclusive ==> forall i, j :: 0 <= i < j < |jobs| ==> Target(jobs[i]) != Target(jobs[j]))
  }

  /** Once the first row of clear rows is written, the remaining rows are clear on the disk it leaves. */
  lemma ClearAfterFirst(fs: FileSystem, g: FileSystem, mode: OpenMode, jobs: seq<Job>)
    requires |jobs| > 0
    requires RunClear(fs, mode, jobs)
    requires g.files.Keys == fs.files.Keys + {Target(jobs[0])}
    requires g.dirs <= fs.dirs + FolderWalk(jobs[0])
    ensures RunClear(g, mode, jobs[1..])
  {
    var tail := jobs[1..];
    forall i | 0 <= i < |tail|
      ensures RowClear(g, mode, tail[i])
    {
      assert tail[i] == jobs[i + 1];
      assert Target(jobs[0]) !in FolderWalk(jobs[i + 1]);
      assert Target(jobs[i + 1]) !in FolderWalk(jobs[0]);
      assert RowClear(fs, mode, jobs[i + 1]);
    }
    forall i, j | 0 <= i < |tail| && 0 <= j < |tail|
      ensures Target(tail[i]) !in FolderWalk(tail[j])
    {
      assert tail[i] == jobs[i + 1] && tail[j] == jobs[j + 1];
    }
    if mode == Exclusive {
      forall i, j | 0 <= i < j < |tail|
        ensures Target(tail[i]) != Target(tail[j])
      {
        assert tail[i] == jobs[i + 1] && tail[j] == jobs[j + 1];
      }
    }
  }

  /** Rows are clear when the first is clear and the rest are clear on the disk the first leaves. */
  lemma ClearBeforeFirst(fs: FileSystem, g: FileSystem, mode: OpenMode, jobs: seq<Job>)
    requires |jobs| > 0
    requires forall i :: 0 <= i < |jobs| ==> FileInFolder(jobs[i])
    requires RowClear(fs, mode, jobs[0])
    requires RunClear(g, mode, jobs[1..])
    requires g.files.Keys == fs.files.Keys + {Target(jobs[0])}
    requires fs.dirs + (FolderWalk(jobs[0]) - {[]}) <= g.dirs
    ensures RunClear(fs, mode, jobs)
  {
    var tail := jobs[1..];
    forall i | 1 <= i < |jobs|
      ensures RowClear(fs, mode, jobs[i])
    {
      assert jobs[i] == tail[i - 1];
      assert RowClear(g, mode, tail[i - 1]);
    }
    forall i, j | 0 <= i < |jobs| && 0 <= j < |jobs|
      ensures Target(jobs[i]) !in FolderWalk(jobs[j])
    {
      if i > 0 && j > 0 {
        assert jobs[i] == tail[i - 1] && jobs[j] == tail[j - 1];
      } else if i > 0 {
        assert jobs[i] == tail[i - 1];
        assert RowClear(g, mode, tail[i - 1]);
        TargetInFolder(jobs[i]);
      } else if j > 0 {
        assert jobs[j] == tail[j - 1];
        assert RowClear(g, mode, tail[j - 1]);
      }
    }
    if mode == Exclusive {
      forall i, j | 0 <= i < j < |jobs|
        ensures Target(jobs[i]) != Target(jobs[j])
      {
        assert jobs[j] == tail[j - 1];
        if i > 0 {
          assert jobs[i] == tail[i - 1];
        } else {
          assert RowClear(g, mode, tail[j - 1]);
        }
      }
    }
  }

  /** Clear rows, each a plain name in its folder, all succeed. */
  lemma {:induction false} ClearRunSucceeds(fs: FileSystem, mode: OpenMode, jobs: seq<Job>)
    requires WellFormed(fs)
    requires forall i :: 0 <= i < |jobs| ==> FileInFolder(jobs[i])
    requires RunClear(fs, mode, jobs)
    ensures Run(fs, mode, jobs).failure.None?
    decreases |jobs|
  {
    if |jobs| > 0 {
      RunUnfold(fs, mode, jobs);
      ClearRowSucceeds(fs, mode, jobs[0]);
      var o := WriteRow(fs, mode, jobs[0]);
      assert o.fs.files.Keys == fs.files.Keys + {Target(jobs[0])};
      ClearAfterFirst(fs, o.fs, mode, jobs);
      forall i | 0 <= i < |jobs| - 1
        ensures FileInFolder(jobs[1..][i])
      {
        assert jobs[1..][i] == jobs[i + 1];
      }
      ClearRunSucceeds(o.fs, mode, jobs[1..]);
    }
  }

  /** A run that succeeds had its rows clear of the disk and of each other. */
  lemma {:induction false} RunSuccessClear(fs: FileSystem, mode: OpenMode, jobs: seq<Job>)
    requires WellFormed(fs)
    requires forall i :: 0 <= i < |jobs| ==> FileInFolder(jobs[i])
    requires Run(fs, mode, jobs).failure.None?
    ensures RunClear(fs, mode, jobs)
    decreases |jobs|
  {
    if |jobs| > 0 {
      RunUnfold(fs, mode, jobs);
      var o := WriteRow(fs, mode, jobs[0]);
      WriteRowSuccessClear(fs, mode, jobs[0]);
      forall i | 0 <= i < |jobs| - 1
        ensures FileInFolder(jobs[1..][i])
      {
        assert jobs[1..][i] == jobs[i + 1];
      }
      RunSuccessClear(o.fs, mode, jobs[1..]);
      assert o.fs.files.Keys == fs.files.Keys + {Target(jobs[0])};
      ClearBeforeFirst(fs, o.fs, mode, jobs);
    }
  }

  /**
   * For rows whose files are plain names in their folders, a run succeeds,
   * in either mode, exactly when the rows are clear of the disk and of each
   * other.
   */
  lemma RunSucceeds(fs: FileSystem, mode: OpenMode, jobs: seq<Job>)
    requires WellFormed(fs)
    requires forall i :: 0 <= i < |jobs| ==> FileInFolder(jobs[i])
    ensures Run(fs, mode, jobs).failure.None? <==> RunClear(fs, mode, jobs)
  {
    if Run(fs, mode, jobs).failure.None? {
      RunSuccessClear(fs, mode, jobs);
    }
    if RunClear(fs, mode, jobs) {
      ClearRunSucceeds(fs, mode, jobs);
    }
  }

  // ---------------------------------------------------------------------
  // Contents after a successful run

  /** One file write: the location and the text put there. */
  datatype Write = Write(loc: Loc, text: string)

  /** The writes a run of `jobs` performs when it succeeds, in row order. */
  function WritesOf(jobs: seq<Job>): (ws: seq<Write>)
    ensures |ws| == |jobs|
  {
    seq(|jobs|, i requires 0 <= i < |jobs| => Write(Target(jobs[i]), jobs[i].text))
  }

  lemma WritesOfTail(jobs: seq<Job>)
    requires |jobs| > 0
    ensures WritesOf(jobs)[1..] == WritesOf(jobs[1..])
    ensures WritesOf(jobs)[0] == Write(Target(jobs[0]), jobs[0].text)
  {
  }

  /** No write of `ws` goes to `loc`. */
  predicate Untouched(ws: seq<Write>, loc: Loc) {
    forall i :: 0 <= i < |ws| ==> ws[i].loc != loc
  }

  /** The file contents after performing the writes in order. */
  function ApplyWrites(files: map<Loc, string>, ws: seq<Write>): map<Loc, string>
    decreases |ws|
  {
    if |ws| == 0 then files
    else ApplyWrites(files[ws[0].loc := ws[0].text], ws[1..])
  }

  /**
   * Last writer wins: a written location holds the text of the last write
   * to it; a location no write touches keeps what it had, or stays absent.
   */
  lemma {:induction false} LastWriterWins(files: map<Loc, string>, ws: seq<Write>, loc: Loc)
    ensures forall i :: (0 <= i < |ws| && ws[i].loc == loc && Untouched(ws[i + 1..], loc)) ==>
      loc in ApplyWrites(files, ws) && ApplyWrites(files, ws)[loc] == ws[i].text
    ensures Untouched(ws, loc) ==>
      (loc in ApplyWrites(files, ws) <==> loc in files) &&
      (loc in files ==> ApplyWrites(files, ws)[loc] == files[loc])
    decreases |ws|
  {
    if |ws| > 0 {
      var files' := files[ws[0].loc := ws[0].text];
      var tail := ws[1..];
      LastWriterWins(files', tail, loc);
      forall i | 0 <= i < |ws| && ws[i].loc == loc && Untouched(ws[i + 1..], loc)
        ensures loc in ApplyWrites(files, ws) && ApplyWrites(files, ws)[loc] == ws[i].text
      {
        if i > 0 {
          assert tail[i - 1] == ws[i];
          assert tail[i - 1 + 1..] == ws[i + 1..];
        }
      }
      if Untouched(ws, loc) {
        assert ws[0].loc != loc;
        forall j | 0 <= j < |tail|
          ensures tail[j].loc != loc
        {
          assert tail[j] == ws[j + 1];
        }
      }
    }
  }

  /** Maps that agree wherever no write goes end up equal once the writes are performed on both. */
  lemma {:induction false} ApplyWritesOverrides(m: map<Loc, string>, m': map<Loc, string>, ws: seq<Write>)
    requires forall loc :: Untouched(ws, loc) ==> (loc in m <==> loc in m') && (loc in m ==> m[loc] == m'[loc])
    ensures ApplyWrites(m, ws) == ApplyWrites(m', ws)
    decreases |ws|
  {
    if |ws| == 0 {
      assert m.Keys == m'.Keys;
    } else {
      var w := ws[0];
      var tail := ws[1..];
      forall loc | Untouched(tail, loc)
        ensures (loc in m[w.loc := w.text] <==> loc in m'[w.loc := w.text])
        ensures loc in m[w.loc := w.text] ==> m[w.loc := w.text][loc] == m'[w.loc := w.text][loc]
      {
        if loc != w.loc {
          forall i | 0 < i < |ws|
            ensures ws[i].loc != loc
          {
            assert ws[i] == tail[i - 1];
          }
          assert Untouched(ws, loc);
        }
      }
      ApplyWritesOverrides(m[w.loc := w.text], m'[w.loc := w.text], tail);
    }
  }

  /** Performing the same writes twice gives the contents of performing them once. */
  lemma ApplyWritesIdempotent(m: map<Loc, string>, ws: seq<Write>)
    ensures ApplyWrites(ApplyWrites(m, ws), ws) == ApplyWrites(m, ws)
  {
    var w := ApplyWrites(m, ws);
    forall loc | Untouched(ws, loc)
      ensures (loc in w <==> loc in m) && (loc in w ==> w[loc] == m[loc])
    {
      LastWriterWins(m, ws, loc);
    }
    ApplyWritesOverrides(w, m, ws);
  }

  /** A successful run, in either mode, leaves exactly the contents of performing its writes in order. */
  lemma {:induction false} RunWrites(fs: FileSystem, mode: OpenMode, jobs: seq<Job>)
    requires Run(fs, mode, jobs).failure.None?
    ensures Run(fs, mode, jobs).fs.files == ApplyWrites(fs.files, WritesOf(jobs))
    decreases |jobs|
  {
    if |jobs| > 0 {
      RunUnfold(fs, mode, jobs);
      WritesOfTail(jobs);
      RunWrites(WriteRow(fs, mode, jobs[0]).fs, mode, jobs[1..]);
    }
  }

  /** After a successful run every row's target is a file. */
  lemma {:induction false} RunTargetsWritten(fs: FileSystem, mode: OpenMode, jobs: seq<Job>)
    requires Run(fs, mode, jobs).failure.None?
    ensures forall i :: 0 <= i < |jobs| ==> Target(jobs[i]) in Run(fs, mode, jobs).fs.files
    decreases |jobs|
  {
    if |jobs| > 0 {
      RunUnfold(fs, mode, jobs);
      var o := WriteRow(fs, mode, jobs[0]);
      var tail := jobs[1..];
      RunTargetsWritten(o.fs, mode, tail);
      var r := Run(o.fs, mode, tail);
      assert Run(fs, mode, jobs).fs == r.fs;
      assert Target(jobs[0]) in r.fs.files by {
        assert Target(jobs[0]) in o.fs.files;
      }
      forall i | 1 <= i < |jobs|
        ensures Target(jobs[i]) in r.fs.files
      {
        assert jobs[i] == tail[i - 1];
      }
    }
  }

  /** Rows after `i` that miss `loc` give writes after `i` that miss it. */
  lemma UntouchedAfter(jobs: seq<Job>, i: nat, loc: Loc)
    requires i < |jobs|
    requires forall j :: i < j < |jobs| ==> Target(jobs[j]) != loc
    ensures Untouched(WritesOf(jobs)[i + 1..], loc)
  {
    var later := WritesOf(jobs)[i + 1..];
    forall j | 0 <= j < |later|
      ensures later[j].loc != loc
    {
      assert later[j] == WritesOf(jobs)[i + 1 + j];
    }
  }

  /**
   * Overwrite mode after a successful run: each targeted location holds the
   * text of the last row targeting it, every other file is unchanged, and
   * no other file appears.
   */
  lemma OverwriteLastWriterWins(fs: FileSystem, mode: OpenMode, jobs: seq<Job>, loc: Loc)
    requires Run(fs, mode, jobs).failure.None?
    ensures var files := Run(fs, mode, jobs).fs.files;
      forall i :: (0 <= i < |jobs| && Target(jobs[i]) == loc &&
        (forall j :: i < j < |jobs| ==> Target(jobs[j]) != loc)) ==>
        loc in files && files[loc] == jobs[i].text
    ensures var files := Run(fs, mode, jobs).fs.files;
      (forall i :: 0 <= i < |jobs| ==> Target(jobs[i]) != loc) ==>
      (loc in files <==> loc in fs.files) && (loc in fs.files ==> files[loc] == fs.files[loc])
  {
    var ws := WritesOf(jobs);
    var files := Run(fs, mode, jobs).fs.files;
    RunWrites(fs, mode, jobs);
    assert files == ApplyWrites(fs.files, ws);
    LastWriterWins(fs.files, ws, loc);
    forall i | 0 <= i < |jobs| && Target(jobs[i]) == loc &&
      (forall j :: i < j < |jobs| ==> Target(jobs[j]) != loc)
      ensures loc in files && files[loc] == jobs[i].text
    {
      UntouchedAfter(jobs, i, loc);
      assert ws[i].loc == loc;
    }
  }

  // ---------------------------------------------------------------------
  // Running again

  /** After a successful run, from a well-formed start, every row is ready in the final state. */
  lemma {:induction false} FirstRunReady(fs: FileSystem, mode: OpenMode, jobs: seq<Job>)
    requires WellFormed(fs)
    requires Run(fs, mode, jobs).failure.None?
    ensures forall i :: 0 <= i < |jobs| ==> Ready(Run(fs, mode, jobs).fs, jobs[i])
    decreases |jobs|
  {
    if |jobs| > 0 {
      RunUnfold(fs, mode, jobs);
      var f := Run(fs, mode, jobs).fs;
      var o := WriteRow(fs, mode, jobs[0]);
      var tail := jobs[1..];
      FirstRunReady(o.fs, mode, tail);
      TraversableMono(o.fs, f, [], Split(jobs[0].folder));
      TraversableMono(o.fs, f, [], Parents(jobs[0].file));
      assert Target(jobs[0]) in o.fs.files;
      forall i | 1 <= i < |jobs|
        ensures Ready(f, jobs[i])
      {
        assert jobs[i] == tail[i - 1];
      }
    }
  }

  /** In overwrite mode, rows that are all ready are written one after another, directories untouched. */
  lemma {:induction false} ReplayReady(g: FileSystem, mode: OpenMode, jobs: seq<Job>)
    requires mode == Truncate
    requires forall i :: 0 <= i < |jobs| ==> Ready(g, jobs[i])
    ensures Run(g, mode, jobs).failure.None?
    ensures Run(g, mode, jobs).fs == g.(files := ApplyWrites(g.files, WritesOf(jobs)))
    decreases |jobs|
  {
    if |jobs| > 0 {
      RunUnfold(g, mode, jobs);
      WritesOfTail(jobs);
      WriteReadyRow(g, mode, jobs[0]);
      var g' := g.(files := g.files[Target(jobs[0]) := jobs[0].text]);
      var tail := jobs[1..];
      forall i | 0 <= i < |tail|
        ensures Ready(g', tail[i])
      {
        assert tail[i] == jobs[i + 1];
        TraversableMono(g, g', [], Split(tail[i].folder));
        TraversableMono(g, g', [], Parents(tail[i].file));
      }
      ReplayReady(g', mode, tail);
    }
  }

  /**
   * Overwrite mode is idempotent: running the same rows again on the state
   * a successful run left succeeds, reports the same files, and changes
   * nothing.
   */
  lemma OverwriteRerunIdempotent(fs: FileSystem, mode: OpenMode, jobs: seq<Job>)
    requires mode == Truncate
    requires WellFormed(fs)
    requires Run(fs, mode, jobs).failure.None?
    ensures var first := Run(fs, mode, jobs);
      Run(first.fs, mode, jobs) == first
  {
    var first := Run(fs, mode, jobs);
    FirstRunReady(fs, mode, jobs);
    ReplayReady(first.fs, mode, jobs);
    RunWrites(fs, mode, jobs);
    ApplyWritesIdempotent(fs.files, WritesOf(jobs));
    LoopReportsDisplays(StepOf(mode), fs, jobs);
    LoopReportsDisplays(StepOf(mode), first.fs, jobs);
    assert jobs[..|jobs|] == jobs;
  }

  // ---------------------------------------------------------------------
  // Exclusive creation

  /** A successful exclusive run wrote only new files, each to a different location. */
  lemma {:induction false} ExclusiveTargetsFresh(fs: FileSystem, mode: OpenMode, jobs: seq<Job>)
    requires mode == Exclusive
    requires Run(fs, mode, jobs).failure.None?
    ensures forall i :: 0 <= i < |jobs| ==> Target(jobs[i]) !in fs.files
    ensures forall i, j :: 0 <= i < j < |jobs| ==> Target(jobs[i]) != Target(jobs[j])
    decreases |jobs|
  {
    if |jobs| > 0 {
      RunUnfold(fs, mode, jobs);
      var o := WriteRow(fs, mode, jobs[0]);
      var tail := jobs[1..];
      ExclusiveTargetsFresh(o.fs, mode, tail);
      forall i | 1 <= i < |jobs|
        ensures Target(jobs[i]) !in fs.files && Target(jobs[i]) != Target(jobs[0])
      {
        assert jobs[i] == tail[i - 1];
      }
      forall i, j | 0 < i < j < |jobs|
        ensures Target(jobs[i]) != Target(jobs[j])
      {
        assert jobs[i] == tail[i - 1] && jobs[j] == tail[j - 1];
      }
    }
  }

  /**
   * Exclusive mode never changes a file that exists: whether the run
   * succeeds or stops, every file present before it keeps its content.
   */
  lemma {:induction false} ExclusiveKeepsExisting(fs: FileSystem, mode: OpenMode, jobs: seq<Job>, loc: Loc)
    requires mode == Exclusive
    requires loc in fs.files
    ensures loc in Run(fs, mode, jobs).fs.files
    ensures Run(fs, mode, jobs).fs.files[loc] == fs.files[loc]
    decreases |jobs|
  {
    if |jobs| > 0 {
      RunUnfold(fs, mode, jobs);
      var o := WriteRow(fs, mode, jobs[0]);
      if o.failure.None? {
        ExclusiveKeepsExisting(o.fs, mode, jobs[1..], loc);
      }
    }
  }

  /**
   * Exclusive mode: a row whose target already exists when the run reaches
   * it stops the run there, and the contents the earlier rows left stay as
   * they were. If the row's folders are in place the error is the
   * file-exists error naming that row's display path.
   */
  lemma ExclusiveExistingTargetStops(fs: FileSystem, mode: OpenMode, jobs: seq<Job>, k: nat)
    requires mode == Exclusive
    requires k < |jobs|
    requires Run(fs, mode, jobs[..k]).failure.None?
    requires Target(jobs[k]) in Run(fs, mode, jobs[..k]).fs.files
    ensures var r := Run(fs, mode, jobs);
      && r.failure.Some?
      && |r.created| == k
      && r.fs.files == Run(fs, mode, jobs[..k]).fs.files
      && (r.failure == Some(InvalidPath) || r.failure == Some(FileExists(jobs[k].display)))
    ensures Ready(Run(fs, mode, jobs[..k]).fs, jobs[k]) ==>
      Run(fs, mode, jobs).failure == Some(FileExists(jobs[k].display))
  {
    var before := Run(fs, mode, jobs[..k]);
    SplitAt(jobs, k);
    LoopConcat(StepOf(mode), fs, jobs[..k], jobs[k..]);
    RunUnfold(before.fs, mode, jobs[k..]);
    assert jobs[k..][0] == jobs[k];
    if Ready(before.fs, jobs[k]) {
      WriteReadyRow(before.fs, mode, jobs[k]);
    }
  }

  /** Exclusive mode: two rows with the same target make the run stop no later than the second of them. */
  lemma ExclusiveRepeatedTargetStops(fs: FileSystem, mode: OpenMode, jobs: seq<Job>, j: nat, k: nat)
    requires mode == Exclusive
    requires j < k < |jobs|
    requires Target(jobs[j]) == Target(jobs[k])
    ensures Run(fs, mode, jobs).failure.Some? && |Run(fs, mode, jobs).created| <= k
  {
    var before := Run(fs, mode, jobs[..k]);
    SplitAt(jobs, k);
    if before.failure.Some? {
      AbortSkipsRest(StepOf(mode), fs, jobs[..k], jobs[k..]);
    } else {
      RunTargetsWritten(fs, mode, jobs[..k]);
      assert jobs[..k][j] == jobs[j];
      ExclusiveExistingTargetStops(fs, mode, jobs, k);
    }
  }

  /**
   * Exclusive mode: running the same non-empty rows again on the state a
   * successful run left fails on the first row with the file-exists error
   * naming its display path, and changes nothing.
   */
  lemma ExclusiveRerunFails(fs: FileSystem, mode: OpenMode, jobs: seq<Job>)
    requires mode == Exclusive
    requires WellFormed(fs)
    requires |jobs| > 0
    requires Run(fs, mode, jobs).failure.None?
    ensures var first := Run(fs, mode, jobs);
      Run(first.fs, mode, jobs) == Report(first.fs, [], Some(FileExists(jobs[0].display)))
  {
    var first := Run(fs, mode, jobs);
    FirstRunReady(fs, mode, jobs);
    RunTargetsWritten(fs, mode, jobs);
    WriteReadyRow(first.fs, mode, jobs[0]);
    RunUnfold(first.fs, mode, jobs);
  }
}

=== FILE: decimal.dfy ===
/**
 * Decimal rendering of integers, as Python's `str` renders an `int`:
 * an optional minus sign followed by the digits of the magnitude, with
 * no leading zeros.
 */
module Decimal {

  function Abs(n: int): (r: nat)
    ensures r == n || r == -n
  {
    if n < 0 then -n else n
  }

  predicate IsDigit(c: char) {
    '0' <= c <= '9'
  }

  function DigitChar(d: nat): (c: char)
    requires d < 10
    ensures IsDigit(c)
  {
    ('0' as int + d) as char
  }

  function DigitValue(c: char): (d: nat)
    requires IsDigit(c)
    ensures d < 10 && DigitChar(d) == c
  {
    (c as int - '0' as int) as nat
  }

  /** The decimal digits of `n`, most significant first. */
  function Digits(n: nat): (s: string)
    ensures 1 <= |s|
    ensures forall i :: 0 <= i < |s| ==> IsDigit(s[i])
    decreases n
  {
    if n < 10 then [DigitChar(n)] else Digits(n / 10) + [DigitChar(n % 10)]
  }

  /** Python's `str(n)` for an integer `n`. */
  function Str(n: int): (s: string)
    ensures 1 <= |s|
    ensures n < 0 <==> s[0] == '-'
  {
    if n < 0 then "-" + Digits(-n) else Digits(n)
  }

  /** The number a string of decimal digits denotes. */
  function Value(s: string): nat
    requires forall i :: 0 <= i < |s| ==> IsDigit(s[i])
  {
    if |s| == 0 then 0 else 10 * Value(s[..|s| - 1]) + DigitValue(s[|s| - 1])
  }

  /** Reading the digits back gives the number: `Digits` loses nothing. */
  lemma {:induction false} DigitsRoundTrip(n: nat)
    ensures Value(Digits(n)) == n
    decreases n
  {
    var s := Digits(n);
    if n >= 10 {
      DigitsRoundTrip(n / 10);
      assert s[..|s| - 1] == Digits(n / 10);
    }
  }

  /** The last digit written is the remainder modulo ten. */
  lemma DigitsLast(n: nat)
    ensures Digits(n)[|Digits(n)| - 1] == DigitChar(n % 10)
  {
  }

  /** Reading `str(n)` back, sign included, gives `n`. */
  lemma StrRoundTrip(n: int)
    ensures var s := Str(n);
      if s[0] == '-' then Value(s[1..]) == -n else Value(s) == n
  {
    var s := Str(n);
    if n < 0 {
      assert s[1..] == Digits(-n);
      DigitsRoundTrip(-n);
    } else {
      DigitsRoundTrip(n);
    }
  }
}

=== FILE: declension.dfy ===
/**
 * The declension helper: the genitive form of a noun after a numeral.
 * Only the noun "column" is known; the form is chosen by the trailing
 * digits of the numeral's decimal rendering.
 */
module Declension {
  import opened Wrappers
  import opened Errors
  import opened Decimal

  const ColumnNoun: string := "столбец"
  /** Genitive singular, used after numerals ending in 1 but not in 11. */
  const ColumnGenitiveSingular: string := "столбца"
  /** Genitive plural, used after every other numeral. */
  const ColumnGenitivePlural: string := "столбцов"

  predicate EndsWith(s: string, suffix: string) {
    |suffix| <= |s| && s[|s| - |suffix|..] == suffix
  }

  /** Numeral agreement stated on the number itself rather than on its text. */
  predicate TakesSingular(number: int) {
    Abs(number) % 10 == 1 && Abs(number) % 100 != 11
  }

  /** `str(n)` ends in "1" exactly when the magnitude of `n` leaves remainder 1 modulo 10. */
  lemma EndsWithOne(n: int)
    ensures EndsWith(Str(n), "1") <==> Abs(n) % 10 == 1
  {
    var s := Str(n);
    DigitsLast(Abs(n));
    assert s[|s| - 1] == Digits(Abs(n))[|Digits(Abs(n))| - 1];
    assert EndsWith(s, "1") <==> s[|s| - 1] == '1';
  }

  /** The last two decimal digits of `m` are the last digit of `m / 10` and the last digit of `m`. */
  lemma LastTwoDigits(m: nat)
    ensures m % 100 == 10 * ((m / 10) % 10) + m % 10
  {
    var q := m / 10;
    var r := 10 * (q % 10) + m % 10;
    assert m == 10 * q + m % 10;
    assert q == 10 * (q / 10) + q % 10;
    assert m == 100 * (q / 10) + r;
    assert 0 <= r < 100;
  }

  /** `str(n)` ends in "11" exactly when the magnitude of `n` leaves remainder 11 modulo 100. */
  lemma EndsWithEleven(n: int)
    ensures EndsWith(Str(n), "11") <==> Abs(n) % 100 == 11
  {
    var m := Abs(n);
    var s := Str(n);
    var d := Digits(m);
    assert s == if n < 0 then "-" + d else d;
    DigitsLast(m);
    if m < 10 {
      assert |d| == 1;
      assert !EndsWith(s, "11") by {
        if n < 0 {
          assert s[0] == '-';
        }
      }
    } else {
      var q := m / 10;
      assert d == Digits(q) + [DigitChar(m % 10)];
      DigitsLast(q);
      assert d[|d| - 2] == DigitChar(q % 10);
      assert s[|s| - 2] == d[|d| - 2] && s[|s| - 1] == d[|d| - 1];
      assert EndsWith(s, "11") <==> s[|s| - 2] == '1' && s[|s| - 1] == '1';
      LastTwoDigits(m);
    }
  }

  /**
   * `correct_declension`: the genitive form of `word` after `number`,
   * or an unknown-word error for any word but "column".
   */
  function CorrectDeclension(word: string, number: int): (r: Result<string, Error>)
    ensures r.Failure? <==> word != ColumnNoun
    ensures r.Failure? ==> r.error == UnknownWord(word)
    ensures r.Success? ==> r.value == ColumnGenitiveSingular || r.value == ColumnGenitivePlural
    ensures r.Success? ==> (r.value == ColumnGenitiveSingular <==> TakesSingular(number))
  {
    var text := Str(number);
    if word == ColumnNoun then
      EndsWithOne(number);
      EndsWithEleven(number);
      if EndsWith(text, "1") && !EndsWith(text, "11") then Success(ColumnGenitiveSingular)
      else Success(ColumnGenitivePlural)
    else
      Failure(UnknownWord(word))
  }

  /** Worked values: 1, 21 and -1 take the singular; 2, 5, 11 and 111 the plural. */
  lemma DeclensionExamples()
    ensures CorrectDeclension(ColumnNoun, 1) == Success(ColumnGenitiveSingular)
    ensures CorrectDeclension(ColumnNoun, 21) == Success(ColumnGenitiveSingular)
    ensures CorrectDeclension(ColumnNoun, -1) == Success(ColumnGenitiveSingular)
    ensures CorrectDeclension(ColumnNoun, 2) == Success(ColumnGenitivePlural)
    ensures CorrectDeclension(ColumnNoun, 5) == Success(ColumnGenitivePlural)
    ensures CorrectDeclension(ColumnNoun, 11) == Success(ColumnGenitivePlural)
    ensures CorrectDeclension(ColumnNoun, 111) == Success(ColumnGenitivePlural)
  {
    assert ColumnGenitiveSingular != ColumnGenitivePlural by {
      assert |ColumnGenitiveSingular| != |ColumnGenitivePlural|;
    }
    assert TakesSingular(1) && TakesSingular(21) && TakesSingular(-1);
    assert !TakesSingular(2) && !TakesSingular(5) && !TakesSingular(11) && !TakesSingular(111);
  }
}

=== FILE: errors.dfy ===
/**
 * The failures the backup tool reports. The tool raises one exception
 * class with a preformatted message; here each kind of failure is its own
 * variant carrying the values the message is built from, and `Message`
 * renders the text the tool shows the operator.
 */
module Errors {
  import Decimal

  datatype Error =
    /** The declension helper has no rule for this word. */
    | UnknownWord(word: string)
    /** The query result does not have exactly three columns. */
    | ColumnCount(columns: int, noun: string)
    /** The query result reports no rows. */
    | EmptyResult
    /** A directory could not be created or the file could not be opened at the derived path. */
    | InvalidPath
    /** An existing entry stood where the row's file or its folder was to be created. */
    | FileExists(displayPath: string)
    /**
     * Overwrite mode met a directory at the row's target. The tool does not
     * catch this `IsADirectoryError`: it ends the run with Python's own error
     * rather than a message of the tool's.
     */
    | TargetIsDirectory

  const ColumnCountPrefix: string :=
    "Результирующая таблица должна состоять из трех столбцов. Данный запрос возвращает таблицу из "
  const EmptyResultText: string := "Результирующая таблица не содержит значений"
  const InvalidPathText: string := "Указан некорректный путь к папке. Файлы не были созданы"
  const FileExistsPrefix: string := "Файл "
  const FileExistsSuffix: string := " уже существует. Перезапись по умолчанию отключена"
  const UnknownWordPrefix: string := "Отсутствует информация о правилах склонения слова \""
  const IsADirectoryName: string := "IsADirectoryError"

  /** The operator-facing text of an error; for the uncaught error, the name of the exception that escapes. */
  function Message(e: Error): (m: string)
    ensures e.UnknownWord? ==> UnknownWordPrefix <= m
    ensures e.ColumnCount? ==> ColumnCountPrefix <= m
    ensures e.FileExists? ==> FileExistsPrefix <= m
    ensures e == EmptyResult ==> m == EmptyResultText
    ensures e == InvalidPath ==> m == InvalidPathText
  {
    match e
    case UnknownWord(w) => UnknownWordPrefix + w + "\""
    case ColumnCount(n, noun) => ColumnCountPrefix + Decimal.Str(n) + " " + noun
    case EmptyResult => EmptyResultText
    case InvalidPath => InvalidPathText
    case FileExists(p) => FileExistsPrefix + p + FileExistsSuffix
    case TargetIsDirectory => IsADirectoryName
  }

  /** The column-count message ends with the count, written in decimal, and the declined noun. */
  lemma ColumnCountMessageNamesCount(n: int, noun: string)
    ensures var m := Message(ColumnCount(n, noun));
      var tail := Decimal.Str(n) + " " + noun;
      |tail| <= |m| && m[|m| - |tail|..] == tail
  {
    var m := Message(ColumnCount(n, noun));
    assert m == ColumnCountPrefix + (Decimal.Str(n) + " " + noun);
  }

  /** The file-exists message names the colliding display path right after its prefix. */
  lemma FileExistsMessageNamesPath(p: string)
    ensures var m := Message(FileExists(p));
      |FileExistsPrefix| + |p| <= |m| && m[|FileExistsPrefix|..|FileExistsPrefix| + |p|] == p
  {
  }
}

=== FILE: file_system.dfy ===
/**
 * An abstract file system: file contents keyed by location, and the set of
 * directories. A location is the list of names from the root to an entry;
 * the root `[]` is always a directory. Paths given as strings are walked
 * component by component with the same step as `normpath` in absolute mode.
 */
module FileSystem {
  import opened Wrappers
  import opened PosixPath
  import opened Seqs

  type Loc = seq<string>

  datatype FileSystem = FileSystem(files: map<Loc, string>, dirs: set<Loc>)

  /** How the destination file is opened: `'w'` truncates, `'x'` refuses an existing entry. */
  datatype OpenMode = Truncate | Exclusive

  /** The operating-system errors the operations raise, named after Python's exception classes. */
  datatype OsError =
    /** `FileNotFoundError`: a directory on the path does not exist. */
    | NotFound
    /** `NotADirectoryError`: a file stands where the path needs a directory. */
    | NotADirectory
    /** `FileExistsError`: the entry to create is already there. */
    | AlreadyExists
    /** `IsADirectoryError`: the file to open for writing is a directory. */
    | IsADirectory

  /** The state after an operation, and the error that stopped it, if any. */
  datatype Outcome = Outcome(fs: FileSystem, failure: Option<OsError>)

  predicate IsDir(fs: FileSystem, loc: Loc) {
    loc == [] || loc in fs.dirs
  }

  /** No location is both a file and a directory, and the root is not a file. */
  predicate WellFormed(fs: FileSystem) {
    [] !in fs.files && fs.files.Keys !! fs.dirs
  }

  /** Every location the walk of `comps` from `cur` passes through is a directory. */
  predicate Traversable(fs: FileSystem, cur: Loc, comps: seq<string>)
    decreases |comps|
  {
    |comps| == 0 ||
    var next := Push(true, cur, comps[0]);
    IsDir(fs, next) && Traversable(fs, next, comps[1..])
  }

  /** Traversability only needs directories, so more directories keep it. */
  lemma {:induction false} TraversableMono(fs: FileSystem, g: FileSystem, cur: Loc, comps: seq<string>)
    requires Traversable(fs, cur, comps)
    requires fs.dirs <= g.dirs
    ensures Traversable(g, cur, comps)
    decreases |comps|
  {
    if |comps| > 0 {
      TraversableMono(fs, g, Push(true, cur, comps[0]), comps[1..]);
    }
  }

  /** A traversable walk from a directory ends at a directory. */
  lemma {:induction false} TraversableReaches(fs: FileSystem, cur: Loc, comps: seq<string>)
    requires IsDir(fs, cur)
    requires Traversable(fs, cur, comps)
    ensures IsDir(fs, Fold(true, cur, comps))
    decreases |comps|
  {
    if |comps| > 0 {
      TraversableReaches(fs, Push(true, cur, comps[0]), comps[1..]);
    }
  }

  /** The beginning of a traversable walk is traversable. */
  lemma {:induction false} TraversablePrefix(fs: FileSystem, cur: Loc, xs: seq<string>, ys: seq<string>)
    requires Traversable(fs, cur, xs + ys)
    ensures Traversable(fs, cur, xs)
    decreases |xs|
  {
    if |xs| > 0 {
      ConcatFront(xs, ys);
      TraversablePrefix(fs, Push(true, cur, xs[0]), xs[1..], ys);
    }
  }

  /** The locations the walk of `comps` from `cur` passes through, one per component. */
  function WalkLocs(cur: Loc, comps: seq<string>): set<Loc>
    decreases |comps|
  {
    if |comps| == 0 then {}
    else
      var next := Push(true, cur, comps[0]);
      {next} + WalkLocs(next, comps[1..])
  }

  /** Walking the first `k` components is one step followed by the walk of the next `k - 1`. */
  lemma FoldPrefixStep(cur: Loc, comps: seq<string>, k: nat)
    requires 1 <= k <= |comps|
    ensures Fold(true, cur, comps[..k]) == Fold(true, Push(true, cur, comps[0]), comps[1..][..k - 1])
  {
    PrefixFront(comps, k);
  }

  /** The walk passes through exactly the locations that the non-empty prefixes of `comps` lead to. */
  lemma {:induction false} WalkLocsArePrefixes(cur: Loc, comps: seq<string>, l: Loc)
    ensures l in WalkLocs(cur, comps) <==> exists k :: 1 <= k <= |comps| && l == Fold(true, cur, comps[..k])
    decreases |comps|
  {
    if |comps| > 0 {
      var next := Push(true, cur, comps[0]);
      var tail := comps[1..];
      WalkLocsArePrefixes(next, tail, l);
      if l == next {
        FoldPrefixStep(cur, comps, 1);
        assert tail[..0] == [];
      } else if l in WalkLocs(next, tail) {
        var k :| 1 <= k <= |tail| && l == Fold(true, next, tail[..k]);
        FoldPrefixStep(cur, comps, k + 1);
      } else {
        forall k | 1 <= k <= |comps|
          ensures l != Fold(true, cur, comps[..k])
        {
          FoldPrefixStep(cur, comps, k);
          if k == 1 {
            assert tail[..0] == [];
          }
        }
      }
    }
  }

  /** A non-empty walk passes through the location it ends at. */
  lemma WalkLocsHasEnd(cur: Loc, comps: seq<string>)
    requires 1 <= |comps|
    ensures Fold(true, cur, comps) in WalkLocs(cur, comps)
  {
    assert comps[..|comps|] == comps;
    WalkLocsArePrefixes(cur, comps, Fold(true, cur, comps));
  }

  /** The walk of a concatenation is the walk of the first part, then the walk of the second from where the first ends. */
  lemma {:induction false} WalkLocsConcat(cur: Loc, xs: seq<string>, ys: seq<string>)
    ensures WalkLocs(cur, xs + ys) == WalkLocs(cur, xs) + WalkLocs(Fold(true, cur, xs), ys)
    decreases |xs|
  {
    if |xs| == 0 {
      assert xs + ys == ys;
    } else {
      var next := Push(true, cur, xs[0]);
      assert (xs + ys)[0] == xs[0];
      assert (xs + ys)[1..] == xs[1..] + ys;
      WalkLocsConcat(next, xs[1..], ys);
    }
  }

  /** The locations that descending through `names` one at a time from `base` reaches. */
  function Descent(base: Loc, names: seq<string>): set<Loc> {
    set k | 1 <= k <= |names| :: base + names[..k]
  }

  /** A walk over plain names descends through them one at a time. */
  lemma WalkLocsNames(cur: Loc, names: seq<string>)
    requires forall i :: 0 <= i < |names| ==> IsName(names[i])
    ensures WalkLocs(cur, names) == Descent(cur, names)
  {
    forall k | 1 <= k <= |names|
      ensures Fold(true, cur, names[..k]) == cur + names[..k]
    {
      FoldNames(true, cur, names[..k]);
    }
    forall l
      ensures l in WalkLocs(cur, names) <==> l in Descent(cur, names)
    {
      WalkLocsArePrefixes(cur, names, l);
    }
  }

  /**
   * How many components into the walk the first file stands, if any: the
   * component at which `makedirs` cannot go on.
   */
  function FirstFileOnWalk(files: map<Loc, string>, cur: Loc, comps: seq<string>): (k: Option<nat>)
    ensures k.Some? ==> 1 <= k.value <= |comps|
    decreases |comps|
  {
    if |comps| == 0 then None
    else
      var next := Push(true, cur, comps[0]);
      if next in files then Some(1)
      else
        match FirstFileOnWalk(files, next, comps[1..])
        case None => None
        case Some(k) => Some(k + 1)
  }

  /**
   * `FirstFileOnWalk` finds the first file: the walk of the first `k`
   * components ends on a file, and no shorter prefix does; when it finds
   * none, no prefix of the walk ends on a file.
   */
  lemma {:induction false} FirstFileOnWalkIsFirst(files: map<Loc, string>, cur: Loc, comps: seq<string>)
    ensures var k := FirstFileOnWalk(files, cur, comps);
      && (k.Some? ==> Fold(true, cur, comps[..k.value]) in files)
      && (forall i :: 1 <= i <= |comps| && (k.None? || i < k.value) ==> Fold(true, cur, comps[..i]) !in files)
    decreases |comps|
  {
    if |comps| > 0 {
      var next := Push(true, cur, comps[0]);
      var tail := comps[1..];
      FirstFileOnWalkIsFirst(files, next, tail);
      var k := FirstFileOnWalk(files, cur, comps);
      if k.Some? {
        FoldPrefixStep(cur, comps, k.value);
        if k.value == 1 {
          assert tail[..0] == [];
        }
      }
      forall i | 1 <= i <= |comps| && (k.None? || i < k.value)
        ensures Fold(true, cur, comps[..i]) !in files
      {
        FoldPrefixStep(cur, comps, i);
        if i == 1 {
          assert tail[..0] == [];
        }
      }
    }
  }

  /** The walk meets no file exactly when none of the locations it passes is a file. */
  lemma {:induction false} FirstFileOnWalkMisses(files: map<Loc, string>, cur: Loc, comps: seq<string>)
    ensures FirstFileOnWalk(files, cur, comps).None? <==> WalkLocs(cur, comps) !! files.Keys
    decreases |comps|
  {
    if |comps| > 0 {
      FirstFileOnWalkMisses(files, Push(true, cur, comps[0]), comps[1..]);
    }
  }

  /**
   * `os.makedirs(path, exist_ok=True)` on the components `comps`, walked from
   * `cur`: each location passed that is not yet a directory is created; one
   * that is a file stops the walk. Directories made before the stop remain.
   * A file met at the last component is `FileExistsError` (the final
   * `mkdir` finds the name taken and it is not a directory); a file met
   * earlier is `NotADirectoryError` (a later `mkdir` cannot pass through it).
   */
  function MakeDirsFrom(fs: FileSystem, cur: Loc, comps: seq<string>): (o: Outcome)
    requires IsDir(fs, cur)
    ensures o.fs.files == fs.files
    ensures fs.dirs <= o.fs.dirs
    ensures WellFormed(fs) ==> WellFormed(o.fs)
    ensures o.failure.None? || o.failure == Some(NotADirectory) || o.failure == Some(AlreadyExists)
    ensures o.failure.None? ==> Traversable(o.fs, cur, comps) && IsDir(o.fs, Fold(true, cur, comps))
    ensures WellFormed(fs) ==> (o.failure.None? <==> FirstFileOnWalk(fs.files, cur, comps).None?)
    ensures WellFormed(fs) && FirstFileOnWalk(fs.files, cur, comps).Some? ==>
      o.failure == Some(if FirstFileOnWalk(fs.files, cur, comps).value == |comps| then AlreadyExists else NotADirectory)
    ensures o.fs.dirs <= fs.dirs + WalkLocs(cur, comps)
    ensures o.failure.None? ==> o.fs.dirs == fs.dirs + (WalkLocs(cur, comps) - {[]})
    decreases |comps|
  {
    if |comps| == 0 then Outcome(fs, None)
    else
      var next := Push(true, cur, comps[0]);
      if IsDir(fs, next) then MakeDirsFrom(fs, next, comps[1..])
      else if next in fs.files then Outcome(fs, Some(if |comps| == 1 then AlreadyExists else NotADirectory))
      else MakeDirsFrom(fs.(dirs := fs.dirs + {next}), next, comps[1..])
  }

  /** Where every location on the walk is already a directory, making directories changes nothing. */
  lemma {:induction false} MakeDirsExisting(fs: FileSystem, cur: Loc, comps: seq<string>)
    requires IsDir(fs, cur)
    requires Traversable(fs, cur, comps)
    ensures MakeDirsFrom(fs, cur, comps) == Outcome(fs, None)
    decreases |comps|
  {
    if |comps| > 0 {
      MakeDirsExisting(fs, Push(true, cur, comps[0]), comps[1..]);
    }
  }

  function MakeDirs(fs: FileSystem, path: string): (o: Outcome)
    ensures o.fs.files == fs.files
    ensures fs.dirs <= o.fs.dirs
    ensures o.failure.None? || o.failure == Some(NotADirectory) || o.failure == Some(AlreadyExists)
    ensures o.failure.None? ==> IsDir(o.fs, Resolve(path)) && Traversable(o.fs, [], Split(path))
    ensures WellFormed(fs) ==> (o.failure.None? <==> FirstFileOnWalk(fs.files, [], Split(path)).None?)
    ensures WellFormed(fs) && FirstFileOnWalk(fs.files, [], Split(path)).Some? ==>
      o.failure == Some(if FirstFileOnWalk(fs.files, [], Split(path)).value == |Split(path)| then AlreadyExists else NotADirectory)
    ensures o.fs.dirs <= fs.dirs + WalkLocs([], Split(path))
    ensures o.failure.None? ==> o.fs.dirs == fs.dirs + (WalkLocs([], Split(path)) - {[]})
  {
    MakeDirsFrom(fs, [], Split(path))
  }

  /** `makedirs` with `exist_ok=True` is idempotent: a second call on its result is a no-op. */
  lemma MakeDirsIdempotent(fs: FileSystem, path: string)
    requires MakeDirs(fs, path).failure.None?
    ensures MakeDirs(MakeDirs(fs, path).fs, path) == Outcome(MakeDirs(fs, path).fs, None)
  {
    MakeDirsExisting(MakeDirs(fs, path).fs, [], Split(path));
  }

  /**
   * Path lookup for `open`: every component but the last must lead through
   * an existing directory, a missing one giving `FileNotFoundError` and a
   * file giving `NotADirectoryError`; the last component names the entry
   * to open.
   */
  function LocateFrom(fs: FileSystem, cur: Loc, comps: seq<string>): (r: Result<Loc, OsError>)
    requires 1 <= |comps|
    ensures r.Success? ==> r.value == Fold(true, cur, comps)
    ensures r.Success? <==> Traversable(fs, cur, comps[..|comps| - 1])
    ensures r.Failure? ==> r.error == NotFound || r.error == NotADirectory
    decreases |comps|
  {
    var next := Push(true, cur, comps[0]);
    if |comps| == 1 then Success(next)
    else if IsDir(fs, next) then
      assert comps[1..][..|comps| - 2] == comps[..|comps| - 1][1..];
      LocateFrom(fs, next, comps[1..])
    else if next in fs.files then Failure(NotADirectory)
    else Failure(NotFound)
  }

  /** The intermediate components of a path, i.e. all but the entry it names. */
  function Parents(path: string): seq<string> {
    var comps := Split(path);
    comps[..|comps| - 1]
  }

  /**
   * `open(path, mode)` followed by writing `text`: exclusive creation refuses
   * any existing entry, truncation refuses only a directory.
   */
  function WriteFile(fs: FileSystem, path: string, mode: OpenMode, text: string): (o: Outcome)
    ensures o.fs.dirs == fs.dirs
    ensures WellFormed(fs) ==> WellFormed(o.fs)
    ensures o.failure.None? <==>
      Traversable(fs, [], Parents(path)) && !IsDir(fs, Resolve(path)) &&
      (mode == Exclusive ==> Resolve(path) !in fs.files)
    ensures o.failure.None? ==>
      Resolve(path) in o.fs.files && o.fs.files[Resolve(path)] == text &&
      forall l :: l != Resolve(path) ==> (l in o.fs.files <==> l in fs.files)
    ensures o.failure.None? ==>
      forall l :: l in fs.files && l != Resolve(path) ==> o.fs.files[l] == fs.files[l]
    ensures o.failure.Some? ==> o.fs == fs
    ensures o.failure == Some(AlreadyExists) <==>
      mode == Exclusive && Traversable(fs, [], Parents(path)) && (IsDir(fs, Resolve(path)) || Resolve(path) in fs.files)
    ensures o.failure == Some(IsADirectory) <==>
      mode == Truncate && Traversable(fs, [], Parents(path)) && IsDir(fs, Resolve(path))
    ensures o.failure.Some? ==> o.failure.value != AlreadyExists && o.failure.value != IsADirectory ==>
      !Traversable(fs, [], Parents(path))
  {
    match LocateFrom(fs, [], Split(path))
    case Failure(e) => Outcome(fs, Some(e))
    case Success(loc) =>
      if IsDir(fs, loc) then Outcome(fs, Some(if mode == Exclusive then AlreadyExists else IsADirectory))
      else if mode == Exclusive && loc in fs.files then Outcome(fs, Some(AlreadyExists))
      else Outcome(fs.(files := fs.files[loc := text]), None)
  }
}

=== FILE: posix_path.dfy ===
/**
 * POSIX path strings: splitting on the separator, `posixpath.normpath`,
 * `posixpath.join`, and the location a path names once `.` and `..` are
 * interpreted against the file-system root.
 *
 * A path is modelled by its components: the pieces between separators.
 * `normpath` folds over the components with a stack (`Push`); resolving a
 * path to a location is the same fold in absolute mode, where `..` at the
 * root stays at the root.
 */
module PosixPath {
  import opened Seqs

  const Sep: char := '/'
  const Dot: string := "."
  const DotDot: string := ".."

  predicate IsAbsolute(p: string) {
    |p| > 0 && p[0] == Sep
  }

  /** A component that names an entry: not empty, not `.` and not `..`. */
  predicate IsName(c: string) {
    c != "" && c != Dot && c != DotDot
  }

  predicate NoSep(c: string) {
    Sep !in c
  }

  // ---------------------------------------------------------------------
  // Components

  /** `p.split('/')`: the pieces between separators, always at least one. */
  function Split(p: string): (r: seq<string>)
    ensures 1 <= |r|
    ensures forall i :: 0 <= i < |r| ==> NoSep(r[i])
    decreases |p|
  {
    if |p| == 0 then [""]
    else if p[0] == Sep then [""] + Split(p[1..])
    else
      var rest := Split(p[1..]);
      [[p[0]] + rest[0]] + rest[1..]
  }

  /** `'/'.join(segs)`. */
  function JoinSegs(segs: seq<string>): string
    decreases |segs|
  {
    if |segs| == 0 then ""
    else if |segs| == 1 then segs[0]
    else segs[0] + [Sep] + JoinSegs(segs[1..])
  }

  /** Joining the pieces of a split gives back the string. */
  lemma {:induction false} JoinSplit(p: string)
    ensures JoinSegs(Split(p)) == p
    decreases |p|
  {
    if |p| == 0 {
    } else if p[0] == Sep {
      JoinSplit(p[1..]);
      var rest := Split(p[1..]);
      if |rest| == 1 {
        assert Split(p) == ["", rest[0]];
      } else {
        assert Split(p)[1..] == rest;
      }
    } else {
      JoinSplit(p[1..]);
      var rest := Split(p[1..]);
      var r := Split(p);
      if |rest| == 1 {
        assert r == [[p[0]] + rest[0]];
      } else {
        assert r[1..] == rest[1..];
        assert JoinSegs(rest) == rest[0] + [Sep] + JoinSegs(rest[1..]);
      }
    }
  }

  /** A string without separators splits into itself. */
  lemma {:induction false} SplitNoSep(c: string)
    requires NoSep(c)
    ensures Split(c) == [c]
    decreases |c|
  {
    if |c| > 0 {
      SplitNoSep(c[1..]);
      assert [c[0]] + c[1..] == c;
    }
  }

  /** Splitting at a separator concatenates the two splits. */
  lemma {:induction false} SplitAround(a: string, b: string)
    ensures Split(a + [Sep] + b) == Split(a) + Split(b)
    decreases |a|
  {
    if |a| == 0 {
      assert a + [Sep] + b == [Sep] + b;
      assert ([Sep] + b)[1..] == b;
    } else {
      var p := a + [Sep] + b;
      assert p[0] == a[0] && p[1..] == a[1..] + [Sep] + b;
      SplitAround(a[1..], b);
      var x := Split(a[1..]);
      var y := Split(b);
      if a[0] == Sep {
        ConcatAssoc([""], x, y);
      } else {
        ConcatFront(x, y);
        ConcatAssoc([[a[0]] + x[0]], x[1..], y);
      }
    }
  }

  /** Splitting a `/`-join of separator-free pieces gives back the pieces. */
  lemma {:induction false} SplitJoin(segs: seq<string>)
    requires 1 <= |segs|
    requires forall i :: 0 <= i < |segs| ==> NoSep(segs[i])
    ensures Split(JoinSegs(segs)) == segs
    decreases |segs|
  {
    SplitNoSep(segs[0]);
    if |segs| > 1 {
      SplitJoin(segs[1..]);
      SplitAround(segs[0], JoinSegs(segs[1..]));
      assert segs == [segs[0]] + segs[1..];
    }
  }

  // ---------------------------------------------------------------------
  // Normalisation

  /** One step of `normpath`'s loop: skip, push, or let `..` cancel the previous component. */
  function Push(absolute: bool, acc: seq<string>, c: string): seq<string> {
    if c == "" || c == Dot then acc
    else if c != DotDot || (!absolute && |acc| == 0) || (|acc| > 0 && acc[|acc| - 1] == DotDot) then acc + [c]
    else if |acc| > 0 then acc[..|acc| - 1]
    else acc
  }

  /** `normpath`'s loop over the components, starting from the stack `acc`. */
  function Fold(absolute: bool, acc: seq<string>, comps: seq<string>): seq<string>
    decreases |comps|
  {
    if |comps| == 0 then acc else Fold(absolute, Push(absolute, acc, comps[0]), comps[1..])
  }

  /**
   * The shape of a normalised component list: no empty, `.` or separator-
   * bearing components, and `..` only as a leading run of a relative path.
   */
  predicate IsNormal(absolute: bool, segs: seq<string>) {
    && (forall i :: 0 <= i < |segs| ==> segs[i] != "" && segs[i] != Dot && NoSep(segs[i]))
    && (absolute ==> DotDot !in segs)
    && (forall i, j :: 0 <= j < i < |segs| && segs[i] == DotDot ==> segs[j] == DotDot)
  }

  lemma PushKeepsNormal(absolute: bool, acc: seq<string>, c: string)
    requires IsNormal(absolute, acc) && NoSep(c)
    ensures IsNormal(absolute, Push(absolute, acc, c))
  {
    if c == DotDot && |acc| > 0 && acc[|acc| - 1] == DotDot {
      var r := acc + [c];
      forall i, j | 0 <= j < i < |r| && r[i] == DotDot
        ensures r[j] == DotDot
      {
        if i == |r| - 1 && j < |acc| - 1 {
          assert acc[|acc| - 1] == DotDot;
        }
      }
    }
  }

  lemma {:induction false} FoldKeepsNormal(absolute: bool, acc: seq<string>, comps: seq<string>)
    requires IsNormal(absolute, acc)
    requires forall i :: 0 <= i < |comps| ==> NoSep(comps[i])
    ensures IsNormal(absolute, Fold(absolute, acc, comps))
    decreases |comps|
  {
    if |comps| > 0 {
      PushKeepsNormal(absolute, acc, comps[0]);
      FoldKeepsNormal(absolute, Push(absolute, acc, comps[0]), comps[1..]);
    }
  }

  /** Folding an already-normal continuation only appends it. */
  lemma {:induction false} FoldNormal(absolute: bool, acc: seq<string>, comps: seq<string>)
    requires IsNormal(absolute, acc + comps)
    ensures Fold(absolute, acc, comps) == acc + comps
    decreases |comps|
  {
    if |comps| > 0 {
      var all := acc + comps;
      var c := comps[0];
      assert all[|acc|] == c;
      if c == DotDot && |acc| > 0 {
        assert all[|acc| - 1] == DotDot;
      }
      assert Push(absolute, acc, c) == acc + [c];
      assert acc + [c] + comps[1..] == all;
      FoldNormal(absolute, acc + [c], comps[1..]);
    }
  }

  /** Folding a list of plain names appends it, in either mode. */
  lemma {:induction false} FoldNames(absolute: bool, acc: seq<string>, names: seq<string>)
    requires forall i :: 0 <= i < |names| ==> IsName(names[i])
    ensures Fold(absolute, acc, names) == acc + names
    decreases |names|
  {
    if |names| > 0 {
      FoldNames(absolute, acc + [names[0]], names[1..]);
      assert acc + [names[0]] + names[1..] == acc + names;
    }
  }

  /** The fold over a concatenation is the fold over the second part, started where the first ends. */
  lemma {:induction false} FoldConcat(absolute: bool, acc: seq<string>, xs: seq<string>, ys: seq<string>)
    ensures Fold(absolute, acc, xs + ys) == Fold(absolute, Fold(absolute, acc, xs), ys)
    decreases |xs|
  {
    if |xs| == 0 {
      assert xs + ys == ys;
    } else {
      assert (xs + ys)[0] == xs[0];
      assert (xs + ys)[1..] == xs[1..] + ys;
      FoldConcat(absolute, Push(absolute, acc, xs[0]), xs[1..], ys);
    }
  }

  /** The normalised component list of a path. */
  function NormSegs(p: string): (segs: seq<string>)
    ensures IsNormal(IsAbsolute(p), segs)
  {
    FoldKeepsNormal(IsAbsolute(p), [], Split(p));
    Fold(IsAbsolute(p), [], Split(p))
  }

  /** The text of a normalised component list: a leading `/` when absolute, `.` for nothing at all. */
  function Render(absolute: bool, segs: seq<string>): string {
    if absolute then [Sep] + JoinSegs(segs)
    else if |segs| == 0 then Dot
    else JoinSegs(segs)
  }

  /** `posixpath.normpath` (without the special case of exactly two leading slashes). */
  function Normpath(p: string): (r: string)
    ensures r != ""
    ensures IsAbsolute(r) <==> IsAbsolute(p)
  {
    if p == "" then Dot
    else
      RenderShape(IsAbsolute(p), NormSegs(p));
      Render(IsAbsolute(p), NormSegs(p))
  }

  lemma RenderShape(absolute: bool, segs: seq<string>)
    requires IsNormal(absolute, segs)
    ensures Render(absolute, segs) != ""
    ensures IsAbsolute(Render(absolute, segs)) <==> absolute
  {
    if !absolute && |segs| > 0 {
      var s := segs[0];
      assert s != "" && NoSep(s);
      assert s[0] != Sep;
      if |segs| > 1 {
        assert JoinSegs(segs) == s + [Sep] + JoinSegs(segs[1..]);
      }
      assert JoinSegs(segs)[0] == s[0];
    }
  }

  /** Parsing the rendering of a normal component list gives back the list and its absoluteness. */
  lemma ParseRender(absolute: bool, segs: seq<string>)
    requires IsNormal(absolute, segs)
    ensures IsAbsolute(Render(absolute, segs)) == absolute
    ensures NormSegs(Render(absolute, segs)) == segs
  {
    RenderShape(absolute, segs);
    var r := Render(absolute, segs);
    if absolute {
      assert r[1..] == JoinSegs(segs);
      if |segs| == 0 {
        assert r == [Sep] && r[1..] == "";
        assert Split(r) == ["", ""];
        assert Fold(true, [], Split(r)) == Fold(true, [], [""]);
      } else {
        SplitJoin(segs);
        assert Split(r) == [""] + segs;
        FoldNormal(true, [], segs);
      }
    } else if |segs| == 0 {
      SplitNoSep(Dot);
    } else {
      SplitJoin(segs);
      FoldNormal(false, [], segs);
    }
  }

  /** `normpath` yields the rendering of the path's normal components. */
  lemma NormpathRenders(p: string)
    ensures Normpath(p) == Render(IsAbsolute(p), NormSegs(p))
  {
    if p == "" {
      assert Split(p) == [""];
    }
  }

  /** `normpath` is idempotent. */
  lemma NormpathIdempotent(p: string)
    ensures Normpath(Normpath(p)) == Normpath(p)
  {
    var q := Normpath(p);
    NormpathRenders(p);
    ParseRender(IsAbsolute(p), NormSegs(p));
    NormpathRenders(q);
  }

  /** The components of a normalised path are the normal components of the original. */
  lemma NormSegsOfNormpath(p: string)
    ensures NormSegs(Normpath(p)) == NormSegs(p)
  {
    NormpathRenders(p);
    ParseRender(IsAbsolute(p), NormSegs(p));
  }

  // ---------------------------------------------------------------------
  // Joining and resolving

  /** `posixpath.join(a, b)`: an absolute right operand replaces the left one. */
  function Join(a: string, b: string): string {
    if IsAbsolute(b) then b
    else if a == "" || a[|a| - 1] == Sep then a + b
    else a + [Sep] + b
  }

  /** The separator `join` puts after `a`: none when `a` is empty or already ends with one. */
  function Glue(a: string): string {
    if a == "" || a[|a| - 1] == Sep then "" else [Sep]
  }

  lemma JoinRelative(a: string, b: string)
    requires !IsAbsolute(b)
    ensures Join(a, b) == a + Glue(a) + b
  {
  }

  /** A non-empty right part decides the glue after a join. */
  lemma GlueAfterJoin(a: string, b: string)
    requires !IsAbsolute(b) && b != ""
    ensures Glue(Join(a, b)) == Glue(b)
  {
    JoinRelative(a, b);
    var ab := a + Glue(a) + b;
    assert ab[|ab| - 1] == b[|b| - 1];
  }

  lemma JoinAssociativeEmptyMiddle(a: string, c: string)
    requires !IsAbsolute(c)
    ensures Join(Join(a, ""), c) == Join(a, Join("", c))
  {
    JoinRelative(a, "");
    JoinRelative("", c);
    var g := a + Glue(a);
    assert Join(a, "") == g;
    JoinRelative(g, c);
    JoinRelative(a, c);
    assert Glue(g) == "" by {
      if Glue(a) != "" {
        assert g[|g| - 1] == Sep;
      }
    }
  }

  lemma JoinAssociativeRelative(a: string, b: string, c: string)
    requires !IsAbsolute(b) && !IsAbsolute(c) && b != ""
    ensures Join(Join(a, b), c) == Join(a, Join(b, c))
  {
    var ab := Join(a, b);
    var bc := Join(b, c);
    JoinRelative(a, b);
    JoinRelative(b, c);
    GlueAfterJoin(a, b);
    JoinRelative(ab, c);
    assert !IsAbsolute(bc) by {
      assert bc[0] == b[0];
    }
    JoinRelative(a, bc);
    assert ab + Glue(b) + c == a + Glue(a) + (b + Glue(b) + c);
  }

  /** `join` is associative, so a multi-argument join may be grouped either way. */
  lemma JoinAssociative(a: string, b: string, c: string)
    ensures Join(Join(a, b), c) == Join(a, Join(b, c))
  {
    if IsAbsolute(c) {
    } else if IsAbsolute(b) {
      assert IsAbsolute(Join(b, c));
    } else if b == "" {
      JoinAssociativeEmptyMiddle(a, c);
    } else {
      JoinAssociativeRelative(a, b, c);
    }
  }

  /** The location a path names, as components below the root: relative paths start at the root. */
  function Resolve(p: string): (loc: seq<string>)
    ensures forall i :: 0 <= i < |loc| ==> IsName(loc[i]) && NoSep(loc[i])
  {
    FoldKeepsNormal(true, [], Split(p));
    Fold(true, [], Split(p))
  }

  /** Normalising an absolute path does not change the location it names. */
  lemma ResolveNormpath(p: string)
    requires IsAbsolute(p)
    ensures Resolve(Normpath(p)) == Resolve(p)
  {
    NormSegsOfNormpath(p);
  }

  /** Resolving a join with a relative right operand continues from where the left operand resolves. */
  lemma ResolveJoinRelative(a: string, b: string)
    requires !IsAbsolute(b)
    ensures Resolve(Join(a, b)) == Fold(true, Resolve(a), Split(b))
  {
    if a == "" {
      assert Join(a, b) == b;
      assert Split(a) == [""];
    } else if a[|a| - 1] == Sep {
      ResolveJoinAfterSep(a, b);
    } else {
      assert Join(a, b) == a + [Sep] + b;
      ResolveAround(a, b);
    }
  }

  /** Resolving `a/b` continues from where `a` resolves. */
  lemma ResolveAround(a: string, b: string)
    ensures Resolve(a + [Sep] + b) == Fold(true, Resolve(a), Split(b))
  {
    SplitAround(a, b);
    FoldConcat(true, [], Split(a), Split(b));
  }

  lemma ResolveJoinAfterSep(a: string, b: string)
    requires a != "" && a[|a| - 1] == Sep && !IsAbsolute(b)
    ensures Resolve(Join(a, b)) == Fold(true, Resolve(a), Split(b))
  {
    var a' := a[..|a| - 1];
    assert a == a' + [Sep] + "";
    ResolveAround(a', "");
    assert Split("") == [""];
    assert Resolve(a) == Resolve(a');
    assert Join(a, b) == a' + [Sep] + b;
    ResolveAround(a', b);
  }

  /** A join with an absolute right operand names the same location whatever the left operand. */
  lemma ResolveJoinAbsolute(a: string, b: string)
    requires IsAbsolute(b)
    ensures Resolve(Join(a, b)) == Resolve(b)
  {
  }

  /**
   * A fragment that is relative and whose normal form does not start by
   * climbing out stays below whatever it is joined to: the location is the
   * base location followed by the fragment's normal components.
   */
  predicate StaysBelow(fragment: string) {
    !IsAbsolute(fragment) && DotDot !in NormSegs(fragment)
  }

  lemma ResolveJoinBelow(base: string, fragment: string)
    requires StaysBelow(fragment)
    ensures Resolve(Join(base, Normpath(fragment))) == Resolve(base) + NormSegs(fragment)
  {
    var segs := NormSegs(fragment);
    var n := Normpath(fragment);
    ResolveJoinRelative(base, n);
    NormpathRenders(fragment);
    assert forall i :: 0 <= i < |segs| ==> IsName(segs[i]);
    if |segs| == 0 {
      SplitNoSep(Dot);
    } else {
      SplitJoin(segs);
      FoldNames(true, Resolve(base), segs);
    }
  }

  /** Appending a name descends into it. */
  lemma ResolveChild(a: string, name: string)
    requires IsName(name) && NoSep(name)
    ensures Resolve(a + [Sep] + name) == Resolve(a) + [name]
  {
    SplitNoSep(name);
    ResolveAround(a, name);
  }

  /** Appending `..` to a path below the root climbs to its parent. */
  lemma ResolveParent(a: string)
    requires Resolve(a) != []
    ensures Resolve(a + [Sep] + DotDot) == Resolve(a)[..|Resolve(a)| - 1]
  {
    SplitNoSep(DotDot);
    ResolveAround(a, DotDot);
  }

  /**
   * Joining a separator-free name to a path adds the name as the last
   * component; the components before it are the path's own, less the empty
   * one a trailing separator leaves.
   */
  lemma SplitJoinName(a: string, name: string)
    requires NoSep(name)
    ensures var s := Split(Join(a, name));
      && s[|s| - 1] == name
      && (Split(a) == s[..|s| - 1] || Split(a) == s[..|s| - 1] + [""])
  {
    SplitNoSep(name);
    assert !IsAbsolute(name) by {
      if |name| > 0 { assert name[0] in name; }
    }
    if a == "" {
      SplitNoSep(a);
      assert Join(a, name) == name;
      assert Split(Join(a, name))[..0] + [""] == Split(a);
    } else if a[|a| - 1] == Sep {
      var a' := a[..|a| - 1];
      assert a == a' + [Sep] + "";
      SplitNoSep("");
      SplitAround(a', "");
      assert a + name == a' + [Sep] + name;
      SplitAround(a', name);
    } else {
      SplitAround(a, name);
    }
  }

  /**
   * Joining a relative path to a non-empty one appends its components to
   * the left path's own, less the empty one a trailing separator leaves.
   */
  lemma JoinSplits(a: string, b: string) returns (p: seq<string>)
    requires a != "" && !IsAbsolute(b)
    ensures 1 <= |p|
    ensures Split(Join(a, b)) == p + Split(b)
    ensures Split(a) == p || Split(a) == p + [""]
  {
    if a[|a| - 1] == Sep {
      var a' := a[..|a| - 1];
      assert a == a' + [Sep] + "";
      SplitNoSep("");
      SplitAround(a', "");
      assert Join(a, b) == a' + [Sep] + b;
      SplitAround(a', b);
      p := Split(a');
    } else {
      SplitAround(a, b);
      p := Split(a);
    }
  }

  /** Joining a plain name to a path names the entry of that name inside the path's location. */
  lemma ResolveJoinName(a: string, name: string)
    requires IsName(name) && NoSep(name)
    ensures Resolve(Join(a, name)) == Resolve(a) + [name]
  {
    assert !IsAbsolute(name) by {
      assert name[0] in name;
    }
    SplitNoSep(name);
    ResolveJoinRelative(a, name);
    FoldNames(true, Resolve(a), [name]);
  }

  /** Joining three relative paths gives a relative path. */
  lemma JoinKeepsRelative3(a: string, b: string, c: string)
    ensures !IsAbsolute(a) && !IsAbsolute(b) && !IsAbsolute(c) ==> !IsAbsolute(Join(Join(a, b), c))
  {
    if !IsAbsolute(a) && !IsAbsolute(b) && !IsAbsolute(c) {
      JoinKeepsRelative(a, b);
      JoinKeepsRelative(Join(a, b), c);
    }
  }

  /** Joining two relative paths gives a relative path. */
  lemma JoinKeepsRelative(a: string, b: string)
    requires !IsAbsolute(a) && !IsAbsolute(b)
    ensures !IsAbsolute(Join(a, b))
  {
    JoinRelative(a, b);
    if a != "" {
      assert Join(a, b)[0] == a[0];
    }
  }
}

=== FILE: row_paths.dfy ===
/**
 * Where one row's file lands. The fragments come from the query result and
 * are not checked by the tool: when neither climbs out with `..` nor is
 * absolute, the file lands under the storage folder; otherwise it may land
 * anywhere.
 */
module RowPaths {
  import opened PosixPath
  import opened FileSystem
  import opened Backup

  /**
   * Fragments that stay below: the target is the storage folder's location
   * followed by the normalised folder segments and then the normalised name
   * segments.
   */
  lemma TargetBelowStorage(ctx: Context, row: Row)
    requires StaysBelow(row.folder) && StaysBelow(row.name)
    ensures Target(JobOf(ctx, row)) == Resolve(RealStorage(ctx)) + NormSegs(row.folder) + NormSegs(row.name)
  {
    var storage := RealStorage(ctx);
    var folder := Join(storage, Normpath(row.folder));
    ResolveJoinBelow(storage, row.folder);
    ResolveJoinBelow(folder, row.name);
  }

  /** An absolute file name replaces everything before it: the target is that name's location whatever the settings and folder. */
  lemma AbsoluteNameEscapes(ctx: Context, row: Row)
    requires IsAbsolute(row.name)
    ensures Target(JobOf(ctx, row)) == Resolve(row.name)
  {
    var j := JobOf(ctx, row);
    ResolveJoinAbsolute(j.folder, Normpath(row.name));
    ResolveNormpath(row.name);
  }

  /** An absolute folder replaces the storage folder: the target no longer depends on the installation directory or the storage setting. */
  lemma AbsoluteFolderEscapes(ctx: Context, ctx': Context, row: Row)
    requires IsAbsolute(row.folder)
    ensures Target(JobOf(ctx, row)) == Target(JobOf(ctx', row))
  {
    ResolveJoinAbsolute(RealStorage(ctx), Normpath(row.folder));
    ResolveJoinAbsolute(RealStorage(ctx'), Normpath(row.folder));
  }

  /**
   * An empty file name is normalised to `.`, so the target is the row's
   * folder itself, a directory once `makedirs` has run: such a row is never
   * written, in either mode.
   */
  lemma EmptyNameNeverWritten(fs: FileSystem, mode: OpenMode, ctx: Context, row: Row)
    requires row.name == ""
    ensures Target(JobOf(ctx, row)) == Resolve(JobOf(ctx, row).folder)
    ensures WriteRow(fs, mode, JobOf(ctx, row)).failure.Some?
  {
    var j := JobOf(ctx, row);
    assert Normpath(row.name) == Dot;
    ResolveJoinRelative(j.folder, Dot);
    SplitNoSep(Dot);
    var o := WriteRow(fs, mode, j);
    if o.failure.None? {
      TraversableReaches(o.fs, [], Split(j.folder));
      assert false;
    }
  }

  lemma NormpathExampleFragments()
    ensures Normpath("..") == ".." && Normpath("f") == "f"
  {
    SplitNoSep("..");
    SplitNoSep("f");
    assert NormSegs("..") == [".."];
    assert NormSegs("f") == ["f"];
  }

  lemma ResolveExampleStorage()
    ensures Resolve("/r/s") == ["r", "s"]
  {
    assert "/r/s" == "" + [Sep] + "r" + [Sep] + "s";
    ResolveChild("", "r");
    ResolveChild("" + [Sep] + "r", "s");
  }

  /** Climbing out of a folder below the root and naming an entry lands in the folder's parent. */
  lemma ResolveSibling(folder: string, name: string)
    requires Resolve(folder) != []
    requires IsName(name) && NoSep(name)
    ensures var loc := Resolve(folder);
      Resolve(folder + [Sep] + DotDot + [Sep] + name) == loc[..|loc| - 1] + [name]
  {
    ResolveParent(folder);
    ResolveChild(folder + [Sep] + DotDot, name);
  }

  /**
   * Nothing confines a row to the storage folder: with installation
   * directory "/r" and storage "s", folder ".." and name "f" write to "/r/f",
   * outside "/r/s".
   */
  lemma ParentFolderLeavesStorage()
    ensures var ctx := Context("/r", "s", Truncate);
      && Resolve(RealStorage(ctx)) == ["r", "s"]
      && Target(JobOf(ctx, Row("..", "f", ""))) == ["r", "f"]
  {
    var ctx := Context("/r", "s", Truncate);
    var row := Row("..", "f", "");
    var storage := RealStorage(ctx);
    JoinRelative("/r", "s");
    assert storage == "/r/s";
    ResolveExampleStorage();
    NormpathExampleFragments();
    var folder := Join(storage, DotDot);
    JoinRelative(storage, DotDot);
    assert folder == storage + [Sep] + DotDot;
    JoinRelative(folder, "f");
    assert Join(folder, "f") == storage + [Sep] + DotDot + [Sep] + "f";
    assert JobOf(ctx, row).file == Join(folder, "f");
    ResolveSibling(storage, "f");
  }

  /**
   * A row whose name normalises to one plain component gets a file that is
   * that name inside the row's real folder, so the row-success conditions
   * apply to it.
   */
  lemma PlainNameFileInFolder(ctx: Context, row: Row)
    requires IsName(Normpath(row.name)) && NoSep(Normpath(row.name))
    ensures FileInFolder(JobOf(ctx, row))
    ensures Target(JobOf(ctx, row)) == Resolve(JobOf(ctx, row).folder) + [Normpath(row.name)]
  {
    var j := JobOf(ctx, row);
    SplitJoinName(j.folder, Normpath(row.name));
    ResolveJoinName(j.folder, Normpath(row.name));
  }

  /**
   * For fragments that stay below, the display path names, from the
   * storage path, the place the file is written from the storage folder:
   * the storage path's components, then the folder's, then the name's.
   */
  lemma DisplayMatchesTarget(ctx: Context, row: Row)
    requires StaysBelow(row.folder) && StaysBelow(row.name)
    ensures Resolve(JobOf(ctx, row).display) == Resolve(ctx.storagePath) + NormSegs(row.folder) + NormSegs(row.name)
    ensures Target(JobOf(ctx, row)) == Resolve(RealStorage(ctx)) + NormSegs(row.folder) + NormSegs(row.name)
  {
    ResolveJoinBelow(ctx.storagePath, row.folder);
    ResolveJoinBelow(Join(ctx.storagePath, Normpath(row.folder)), row.name);
    TargetBelowStorage(ctx, row);
  }

  /**
   * The directories `makedirs` passes through for a row whose folder stays
   * below: those on the way to the real storage folder, then one per
   * component of the folder's normal form. A `..` or `.` written in the
   * folder never reaches the disk: `a/../b` passes through `b` alone.
   */
  lemma FolderWalkBelow(ctx: Context, row: Row)
    requires Normpath(ctx.storagePath) == ctx.storagePath
    requires StaysBelow(row.folder)
    ensures FolderWalk(JobOf(ctx, row))
      == WalkLocs([], Split(RealStorage(ctx))) + Descent(Resolve(RealStorage(ctx)), NormSegs(row.folder))
  {
    var storage := RealStorage(ctx);
    var n := Normpath(row.folder);
    assert JobOf(ctx, row).folder == Join(storage, n);
    assert storage != "" by {
      assert ctx.storagePath != "";
    }
    WalkAfterJoin(storage, n);
    WalkLocsHasEnd([], Split(storage));
    NormalFolderWalk(Resolve(storage), row.folder);
  }

  /** Walking a joined path walks the left path, then the right one from where the left ends. */
  lemma WalkAfterJoin(a: string, b: string)
    requires a != "" && !IsAbsolute(b)
    ensures WalkLocs([], Split(Join(a, b))) == WalkLocs([], Split(a)) + WalkLocs(Resolve(a), Split(b))
  {
    var p := JoinSplits(a, b);
    WalkLocsConcat([], p, Split(b));
    if Split(a) != p {
      FoldConcat(true, [], p, [""]);
      WalkLocsConcat([], p, [""]);
      WalkLocsHasEnd([], p);
    }
  }

  /**
   * Walking a normalised folder that stays below descends through its normal
   * components; when there are none, the walk's `.` stays where it is.
   */
  lemma NormalFolderWalk(loc: Loc, folder: string)
    requires StaysBelow(folder)
    ensures Descent(loc, NormSegs(folder)) <= WalkLocs(loc, Split(Normpath(folder)))
    ensures WalkLocs(loc, Split(Normpath(folder))) <= Descent(loc, NormSegs(folder)) + {loc}
  {
    var segs := NormSegs(folder);
    forall i | 0 <= i < |segs|
      ensures IsName(segs[i])
    {
      assert segs[i] in segs;
    }
    NormpathRenders(folder);
    if |segs| == 0 {
      SplitNoSep(Dot);
      assert WalkLocs(loc, [Dot]) == {loc};
    } else {
      SplitJoin(segs);
      WalkLocsNames(loc, segs);
    }
  }

  /**
   * The directories a row whose folder stays below may create lie on the way
   * to the real storage folder or on its folder's normal form, and when the
   * row succeeds every directory of that normal form exists.
   */
  lemma RowFoldersBelow(fs: FileSystem, mode: OpenMode, ctx: Context, row: Row)
    requires Normpath(ctx.storagePath) == ctx.storagePath
    requires StaysBelow(row.folder)
    ensures var o := WriteRow(fs, mode, JobOf(ctx, row));
      var chain := Descent(Resolve(RealStorage(ctx)), NormSegs(row.folder));
      && o.fs.dirs <= fs.dirs + WalkLocs([], Split(RealStorage(ctx))) + chain
      && (o.failure.None? ==> chain <= o.fs.dirs)
  {
    FolderWalkBelow(ctx, row);
    var chain := Descent(Resolve(RealStorage(ctx)), NormSegs(row.folder));
    assert [] !in chain;
  }

  /** A `/`-join starts with the first piece. */
  lemma JoinSegsHead(segs: seq<string>)
    requires 1 <= |segs| && segs[0] != ""
    ensures JoinSegs(segs) != "" && JoinSegs(segs)[0] == segs[0][0]
  {
    if |segs| > 1 {
      assert JoinSegs(segs) == segs[0] + ([Sep] + JoinSegs(segs[1..]));
    }
  }

  /** A `/`-join of plain names is already normal. */
  lemma NormpathOfNames(segs: seq<string>)
    requires 1 <= |segs|
    requires forall i :: 0 <= i < |segs| ==> IsName(segs[i]) && NoSep(segs[i])
    ensures Normpath(JoinSegs(segs)) == JoinSegs(segs)
  {
    var p := JoinSegs(segs);
    SplitJoin(segs);
    JoinSegsHead(segs);
    assert !IsAbsolute(p) by {
      assert segs[0][0] in segs[0];
    }
    FoldNames(false, [], segs);
    assert NormSegs(p) == segs;
    assert Normpath(p) == Render(false, segs);
  }

  /** A plain name does not end with a separator, so `join` puts one after it. */
  lemma JoinAfterName(a: string, b: string)
    requires a != "" && NoSep(a) && !IsAbsolute(b)
    ensures Join(a, b) == a + [Sep] + b
  {
    assert a[|a| - 1] in a;
  }

  /** Joining a `/`-join of plain names descends through them in order. */
  lemma ResolveJoinNames(base: string, segs: seq<string>)
    requires 1 <= |segs|
    requires forall i :: 0 <= i < |segs| ==> IsName(segs[i]) && NoSep(segs[i])
    ensures Resolve(Join(base, JoinSegs(segs))) == Resolve(base) + segs
  {
    SplitJoin(segs);
    JoinSegsHead(segs);
    assert !IsAbsolute(JoinSegs(segs)) by {
      assert segs[0][0] in segs[0];
    }
    ResolveJoinRelative(base, JoinSegs(segs));
    FoldNames(true, Resolve(base), segs);
  }

  lemma JoinSegsFour(s: string, a: string, b: string, n: string)
    ensures JoinSegs([s, a, b, n]) == s + [Sep] + a + [Sep] + b + [Sep] + n
  {
    assert [s, a, b, n][1..] == [a, b, n];
    assert [a, b, n][1..] == [b, n];
    assert [b, n][1..] == [n];
    assert JoinSegs([n]) == n;
    assert JoinSegs([b, n]) == b + [Sep] + n;
    assert JoinSegs([a, b, n]) == a + [Sep] + (b + [Sep] + n);
    assert JoinSegs([s, a, b, n]) == s + [Sep] + (a + [Sep] + (b + [Sep] + n));
  }

  /** Plain names, and a folder of two plain names, are left alone by `normpath`. */
  lemma NestedFragmentsNormal(s: string, a: string, b: string, n: string)
    requires IsName(s) && NoSep(s) && IsName(a) && NoSep(a) && IsName(b) && NoSep(b) && IsName(n) && NoSep(n)
    ensures Normpath(s) == s && Normpath(n) == n && Normpath(a + [Sep] + b) == a + [Sep] + b
  {
    NormpathOfNames([s]);
    NormpathOfNames([n]);
    assert JoinSegs([a, b]) == a + [Sep] + b by {
      assert [a, b][1..] == [b];
    }
    NormpathOfNames([a, b]);
  }

  /** Joining plain names puts exactly one separator between them. */
  lemma NestedJoins(s: string, a: string, b: string, n: string)
    requires IsName(s) && NoSep(s) && IsName(a) && NoSep(a) && IsName(b) && NoSep(b) && IsName(n) && NoSep(n)
    ensures Join(Join(s, a + [Sep] + b), n) == s + [Sep] + (a + [Sep] + b) + [Sep] + n
  {
    var ab := a + [Sep] + b;
    var sab := s + [Sep] + ab;
    assert Join(s, ab) == sab by {
      assert a[0] in a;
      JoinAfterName(s, ab);
    }
    assert n[0] in n;
    assert sab[|sab| - 1] == b[|b| - 1];
    assert b[|b| - 1] in b;
  }

  /** The display path of storage `s`, folder `a/b` and name `n`, all plain names, is `s/a/b/n`. */
  lemma NestedDisplay(s: string, a: string, b: string, n: string)
    requires IsName(s) && NoSep(s) && IsName(a) && NoSep(a) && IsName(b) && NoSep(b) && IsName(n) && NoSep(n)
    ensures Join(Join(Normpath(s), Normpath(a + [Sep] + b)), Normpath(n)) == JoinSegs([s, a, b, n])
  {
    NestedFragmentsNormal(s, a, b, n);
    NestedJoins(s, a, b, n);
    JoinSegsFour(s, a, b, n);
  }

  /**
   * A row two folders deep: with storage `s`, folder `a/b` and name `n`,
   * all plain names, the operator is shown `s/a/b/n` and the file is
   * written at the installation directory's location followed by s, a, b
   * and n.
   */
  lemma NestedFolderRowPaths(installDir: string, overwriting: bool, s: string, a: string, b: string, n: string, text: string)
    requires IsName(s) && NoSep(s) && IsName(a) && NoSep(a) && IsName(b) && NoSep(b) && IsName(n) && NoSep(n)
    ensures var j := JobOf(ContextOf(installDir, Settings(s, overwriting)), Row(a + [Sep] + b, n, text));
      && j.display == JoinSegs([s, a, b, n])
      && Target(j) == Resolve(installDir) + [s, a, b, n]
  {
    var j := JobOf(ContextOf(installDir, Settings(s, overwriting)), Row(a + [Sep] + b, n, text));
    NestedDisplay(s, a, b, n);
    assert j.display == JoinSegs([s, a, b, n]);
    ResolveJoinNames(installDir, [s, a, b, n]);
  }
}

=== FILE: seqs.dfy ===
/** Small facts about sequence concatenation and slicing, stated once for the proofs that need them. */
module Seqs {
  lemma ConcatAssoc<T>(a: seq<T>, b: seq<T>, c: seq<T>)
    ensures a + (b + c) == (a + b) + c
  {
  }

  lemma ConcatFront<T>(xs: seq<T>, ys: seq<T>)
    requires |xs| > 0
    ensures (xs + ys)[0] == xs[0] && (xs + ys)[1..] == xs[1..] + ys
  {
  }

  lemma PrefixFront<T>(s: seq<T>, k: nat)
    requires 0 < k <= |s|
    ensures s[..k][0] == s[0] && s[..k][1..] == s[1..][..k - 1]
  {
  }

  lemma SplitAt<T>(s: seq<T>, k: nat)
    requires k <= |s|
    ensures s == s[..k] + s[k..]
  {
  }
}

=== FILE: wrappers.dfy ===
/** The optional and two-way result types the model of the backup tool uses. */
module Wrappers {

  /** An optional value; `None` is the absence of an error or of a result. */
  datatype Option<+T> = None | Some(value: T)

  /** Either a value or the error that replaced it. */
  datatype Result<+R, +E> = Success(value: R) | Failure(error: E)
}
